=== FILE: README.md ===
# Forum grading and summary-report decision rules

A Dafny model of the small decision rules scattered through the forum grader,
the rubric grading panel and the forum summary report of this Moodle plugin
set. Each rule is a pure function over plain records. DOM nodes, database
rows, Ajax replies and controller objects become inputs. Each module follows
one source file:

- `GroupFilters` models `mod/forum/report/summary/classes/output/filters.php`. It decides which groups are offered and which are selected, and builds the checked list for the template.
- `Comparison` models `grade/amd/src/grades/grader/gradingpanel/comparison.js`. It is the per-type dirty-element rule, combined with "some".
- `RubricPanel` models `grade/grading/form/rubric/classes/gradingpanel.php`. It covers the display-mode label, the value fallback and the panel's flags.
- `ForumGrader` models `mod/forum/amd/src/grades/grader.js`. It covers grouping a user's replies under their parent posts, and launch-click dispatch.
- `UserPicker` models `mod/forum/amd/src/local/grades/local/grader/user_picker.js`. It covers the initial index, the shown record and direction clicks.
- `DeselectRadio` models `grade/grading/form/rubric/amd/src/grades/grader/gradingpanel/deselectradio.js`. It is the checked/aria/tabindex toggle. It includes the HTML rule that checking a radio unchecks the other radios of its group.
- `SummaryFilters` models `mod/forum/report/summary/amd/src/filters.js`. It covers the form action, the one-open-filter latch, the group checkboxes and the dates save.
- `ReportScope` models `mod/forum/report/summary/index.php`. It resolves the forum-versus-course scope.
- `Base` holds the shared `Option` and `Result` types. `Result.Err` stands for a thrown exception.

Ids are unbounded integers. A JavaScript value that may be `null` or
`undefined` is an `Option`. A missing post parent is the id 0, which
JavaScript reads as false.

## Model

| member | source | states |
|---|---|---|
| `GroupFilters.Put` | mod/forum/report/summary/classes/output/filters.php:96 | Assigning a group into the available array adds its id to the keys. An existing id is overwritten in place, so earlier ids keep their positions. The entry assigned is in the array afterwards. |
| `GroupFilters.PutKeepsKeysDistinct` | mod/forum/report/summary/classes/output/filters.php:96 | Assigning a key never makes two entries share a key. |
| `GroupFilters.GroupsData` | mod/forum/report/summary/classes/output/filters.php:78 | Missing or empty `groups` filter data is read as no groups. Otherwise the given ids are used unchanged. |
| `GroupFilters.RequestedAllowed` | mod/forum/report/summary/classes/output/filters.php:95-102 | This is the reference selection when "all groups" is not chosen. An id is in it iff it was requested and belongs to an allowed group. |
| `GroupFilters.Loop` | mod/forum/report/summary/classes/output/filters.php:95-102 | This is the foreach over allowed groups. Once 0 is selected the selection does not change. |
| `GroupFilters.LoopOffersVisitedGroups` | mod/forum/report/summary/classes/output/filters.php:95-96 | The loop adds every visited group id to the keys and no other id. Keys that were distinct stay distinct. |
| `GroupFilters.LoopSelectsRequested` | mod/forum/report/summary/classes/output/filters.php:95-102 | While 0 is not selected, the loop appends exactly the requested ids of the visited groups, in visiting order. This is the reference selection `RequestedAllowed`. |
| `GroupFilters.LoopSelectsOfferedGroups` | mod/forum/report/summary/classes/output/filters.php:95-102 | If every selected id was a key before the loop, every selected id is a key after it. |
| `GroupFilters.PutKeepsOtherEntries` | mod/forum/report/summary/classes/output/filters.php:96 | Assigning one key leaves every entry with another key at its position, with its name. |
| `GroupFilters.LoopKeepsEarlierEntries` | mod/forum/report/summary/classes/output/filters.php:95-97 | The loop keeps every earlier entry's key at its position. An entry whose id no later group has keeps its name too. The array grows by at most one entry per group. |
| `GroupFilters.PutAppendsNewKey` | mod/forum/report/summary/classes/output/filters.php:96 | Assigning a key the array does not have yet appends its `id => name` entry at the end and changes nothing else. |
| `GroupFilters.LoopAppendsNewGroups` | mod/forum/report/summary/classes/output/filters.php:95-97 | When the visited groups have distinct ids and none of them is already a key, the loop appends exactly their `id => name` entries, in visiting order. |
| `GroupFilters.LoopKeepsLastName` | mod/forum/report/summary/classes/output/filters.php:95-97 | A visited group that no later group repeats leaves its own `id => name` entry in the array. Later assignments to the same key overwrite the name, so the last group carrying an id names it. |
| `GroupFilters.LoopKeepsLastNames` | mod/forum/report/summary/classes/output/filters.php:95-97 | The same fact, stated at once for every visited group that no later group repeats. |
| `GroupFilters.PrepareGroups` | mod/forum/report/summary/classes/output/filters.php:82-107 | "All groups" (0) is always a key and always the first entry. When no allowed group has id 0, that first entry carries the "all groups" label. There is at most one entry per allowed group beyond it. The keys are exactly {0} plus the allowed ids. When the allowed ids are distinct and none is 0, the array is exactly the "all groups" entry followed by each allowed group's `id => name`, in allowed order. In every case, an allowed group that no later allowed group repeats appears with its own name. With no request, or with 0 requested, the selection is exactly [0]. Otherwise it is the allowed groups that were requested, in allowed order. Every selected id is a key. |
| `GroupFilters.NewFilters` | mod/forum/report/summary/classes/output/filters.php:73-80 | Missing or empty groups data selects exactly [0]. |
| `GroupFilters.ExportForTemplate` | mod/forum/report/summary/classes/output/filters.php:116-133 | There is one template entry per available group, in array order, with its id and name. Each entry is checked iff its id is selected. |
| `GroupFilters.RequestedAllowedDistinct` | mod/forum/report/summary/classes/output/filters.php:95-101 | If allowed ids are distinct, the requested-allowed selection has no duplicates. |
| `GroupFilters.SelectionDistinct` | mod/forum/report/summary/classes/output/filters.php:87-101 | If allowed ids are distinct, the prepared selection has no duplicates. |
| `GroupFilters.ExportChecksRequestedGroups` | mod/forum/report/summary/classes/output/filters.php:82-128 | With "all groups" selected, only entry 0 is checked. Otherwise an entry is checked iff it was requested and is allowed. |
| `Comparison.OptionsChanged` | grade/amd/src/grades/grader/gradingpanel/comparison.js:50-52 | True iff some option's `defaultSelected` differs from its `selected`. |
| `Comparison.IsDirty` | grade/amd/src/grades/grader/gradingpanel/comparison.js:32-54 | Submit and button elements are never dirty. Radio and checkbox are dirty iff `defaultChecked` ≠ `checked`. Textarea and number are dirty iff `defaultValue` ≠ `value`. A select-one with value "-1" is never dirty; any other select-one is dirty iff some option changed. Any other type is never dirty. |
| `Comparison.CompareData` | grade/amd/src/grades/grader/gradingpanel/comparison.js:31-55 | True iff some element of the form is dirty, so an empty form gives false. |
| `Comparison.AppendKeepsDirty` | grade/amd/src/grades/grader/gradingpanel/comparison.js:32 | Appending elements never turns a dirty form clean. |
| `Comparison.InertElementsIgnored` | grade/amd/src/grades/grader/gradingpanel/comparison.js:32-54 | Adding an element of a type no rule covers (text, hidden, …) at either end leaves the verdict unchanged. |
| `RubricPanel.RubricMode` | grade/grading/form/rubric/classes/gradingpanel.php:202-218 | Each label is produced by exactly its modes. 'editor preview' comes from PREVIEW or PREVIEW_GRADED, 'evaluate editable' from EVAL, 'evaluate frozen' from EVAL_FROZEN, 'review' from REVIEW and 'view' from VIEW. The empty string comes from an unlisted mode. |
| `RubricPanel.RubricModeSeparatesModes` | grade/grading/form/rubric/classes/gradingpanel.php:202-218 | Two modes share a label only if they are equal or both preview modes. |
| `RubricPanel.SetMode` | grade/grading/form/rubric/classes/gradingpanel.php:75-77 | After `set_mode` the label is 'evaluate editable', and nothing else in the panel changes. |
| `RubricPanel.Values` | grade/grading/form/rubric/classes/gradingpanel.php:54-61 | Returns the submitted value when it is not null, including an empty one. Otherwise it returns the instance's filling, so the result is never null. |
| `RubricPanel.IsInvalid` | grade/grading/form/rubric/classes/gradingpanel.php:63-69 | A null or empty submission is never invalid. A submitted filling is invalid iff it fails validation, and that same value is what the panel shows. |
| `RubricPanel.ShowDescriptionTeacher` | grade/grading/form/rubric/classes/gradingpanel.php:134-139 | Gives the formatted description iff `showdescriptionteacher` is set, and `false` otherwise. |
| `RubricPanel.ShowRemark` | grade/grading/form/rubric/classes/gradingpanel.php:144-150 | Remarks show only if enabled. In any mode other than VIEW, they show iff enabled. |
| `RubricPanel.ViewHidesRemarksUnlessShownToStudents` | grade/grading/form/rubric/classes/gradingpanel.php:144-150 | In VIEW mode, remarks show iff they are enabled and `showremarksstudent` is set. |
| `RubricPanel.CanEdit` | grade/grading/form/rubric/classes/gradingpanel.php:152-155 | Always false. |
| `RubricPanel.IncludeFormFields` | grade/grading/form/rubric/classes/gradingpanel.php:157-160 | Always true. |
| `RubricPanel.InstanceUpdateRequiredAsWritten` | grade/grading/form/rubric/classes/gradingpanel.php:87-98 | As written, it always returns false. |
| `RubricPanel.InstanceUpdateRequired` | grade/grading/form/rubric/classes/gradingpanel.php:83-98 | As intended, it is true iff a current instance exists and its status is NEEDUPDATE. |
| `RubricPanel.InstanceUpdateRequiredDiscrepancy` | grade/grading/form/rubric/classes/gradingpanel.php:87-91 | A panel whose stored instance needs an update is reported as not needing one. |
| `RubricPanel.NewCriterion` | grade/grading/form/rubric/classes/gradingpanel.php:108-111 | A submitted filling gives its own level and remark for the criterion. The level and remark are both null when the criterion is absent from the filling, or when there is no submitted filling. |
| `RubricPanel.StoredRubricHasChangesAsWritten` | grade/grading/form/rubric/classes/gradingpanel.php:100-117 | As written, there are no changes without a current instance. Otherwise it is true iff some stored criterion has a non-null, non-zero level or a non-empty remark, whatever was submitted. |
| `RubricPanel.StoredRubricHasChanges` | grade/grading/form/rubric/classes/gradingpanel.php:100-117 | As intended, there are no changes without a current instance. A reported change means some stored criterion differs from the panel's values. |
| `RubricPanel.UnchangedValuesAreNoChange` | grade/grading/form/rubric/classes/gradingpanel.php:106-116 | Values equal to the stored filling are not a change. |
| `RubricPanel.ChangedLevelIsChange` | grade/grading/form/rubric/classes/gradingpanel.php:112-114 | A stored criterion whose level differs from the values is a change. |
| `RubricPanel.ChangedRemarkIsChange` | grade/grading/form/rubric/classes/gradingpanel.php:112-114 | A stored criterion whose remark differs from the values is a change. |
| `RubricPanel.StoredRubricHasChangesDiscrepancy` | grade/grading/form/rubric/classes/gradingpanel.php:105-113 | If the stored filling itself is submitted, the code as written still reports a change. |
| `RubricPanel.RestoredFromDraft` | grade/grading/form/rubric/classes/gradingpanel.php:119-125 | Built on the corrected stored-changes test: true iff there are stored changes and `isrestored` is set. This needs a current instance. |
| `RubricPanel.RestoredFromDraftAsWritten` | grade/grading/form/rubric/classes/gradingpanel.php:119-125 | As the code runs it: true iff `isrestored` is set and the stored-changes test as written reports a change. This needs a current instance. |
| `RubricPanel.GetData` | grade/grading/form/rubric/classes/gradingpanel.php:167-194 | Built on the corrected update and stored-changes tests. The exported mode is always 'evaluate editable', and remarks show iff enabled. Values are `get_values()` and never null. The invalid flag is true iff a submitted filling fails validation. The update flag is true iff a current instance needs an update. The change flag is true iff `isrestored` is set and the stored filling differs from the values. The teacher description is present iff its option is set. `canedit` is false and `hasformfields` is true. |
| `RubricPanel.GetDataAsWritten` | grade/grading/form/rubric/classes/gradingpanel.php:167-194 | As the code runs it: the same export as `GetData`, except that the update flag is always false and the change flag comes from the stored-changes test as written. |
| `ForumGrader.Marked` | mod/forum/amd/src/grades/grader.js:53-54 | A shown post has a null subject and is read-only, and is otherwise unchanged. |
| `ForumGrader.ScanParents` | mod/forum/amd/src/grades/grader.js:57-66 | The scan over parent ids finds the last parent with the id, or reports that none has it. |
| `ForumGrader.ParentIndex` | mod/forum/amd/src/grades/grader.js:57-66 | The found index holds the id and no later parent holds it. None means no parent has the id. |
| `ForumGrader.BuildEntry` | mod/forum/amd/src/grades/grader.js:52-72 | A post with no parent id, or whose parent id matches no parent post, maps to itself. Otherwise it maps to the last parent post with that id, with `hasreplies` true and `replies` = [the post]: each match in the `parentmap` scan overwrites `passback`. Every entry has a null subject and is read-only. |
| `ForumGrader.BuildPosts` | mod/forum/amd/src/grades/grader.js:52-72 | The built list has the same length as `userposts`, and every entry has a null subject and is read-only. |
| `ForumGrader.BuiltKeepsEveryUserPost` | mod/forum/amd/src/grades/grader.js:52-71 | At each position, the built entry is either the user post itself or its parent carrying it as the only reply. |
| `ForumGrader.ReplyShownUnderParent` | mod/forum/amd/src/grades/grader.js:56-66 | A reply whose parent is the last parent post with that id is shown as that parent carrying the reply. |
| `ForumGrader.DispatchClick` | mod/forum/amd/src/grades/grader.js:103-126 | A click off a launch button is ignored. With no gradable node it throws 'Unable to find a gradable item'. A node that is not whole-forum throws 'Unable to find a valid gradable item'. Only a whole-forum node launches, with its cmid, groupid and initial user id. |
| `UserPicker.InitialIndex` | mod/forum/amd/src/local/grades/local/grader/user_picker.js:39-41 | Gives the first position holding the current user id, or -1 iff no user has it. |
| `UserPicker.ShowUser` | mod/forum/amd/src/local/grades/local/grader/user_picker.js:22-27 | The record has total = number of users and displayIndex = index + 1. It carries the user iff the index is in range. |
| `UserPicker.DisplayIndexInRange` | mod/forum/amd/src/local/grades/local/grader/user_picker.js:23-27 | While the index is in range, displayIndex lies in [1, total]. |
| `UserPicker.BuildPicker` | mod/forum/amd/src/local/grades/local/grader/user_picker.js:33-48 | The picker starts at the current user's first position, or at -1 iff the user is absent. |
| `UserPicker.BuildPickerShowsCurrentUser` | mod/forum/amd/src/local/grades/local/grader/user_picker.js:39-43 | The first record shows the current user, at a position in [1, total], iff that user is listed. Otherwise it shows no user at position 0. |
| `UserPicker.ChangeUser` | mod/forum/amd/src/local/grades/local/grader/user_picker.js:15-17 | A click moves the index by the button's direction, with no clamping. |
| `UserPicker.NavigateAddsSum` | mod/forum/amd/src/local/grades/local/grader/user_picker.js:12-20 | After any sequence of clicks, the index is the start index plus the sum of the directions. |
| `UserPicker.NextThenPreviousReturns` | mod/forum/amd/src/local/grades/local/grader/user_picker.js:15-17 | A +1 click followed by a -1 click returns to the same picker state. |
| `DeselectRadio.FindById` | grade/grading/form/rubric/amd/src/grades/grader/gradingpanel/deselectradio.js:28 | Gives the first radio in the root carrying the id, or none iff no radio has it. |
| `DeselectRadio.Toggle` | grade/grading/form/rubric/amd/src/grades/grader/gradingpanel/deselectradio.js:29-37 | Flips `checked`. Afterwards `aria-checked` is 'true' iff checked, and `tabindex` is '0' iff checked and '-1' otherwise. |
| `DeselectRadio.ToggleTwice` | grade/grading/form/rubric/amd/src/grades/grader/gradingpanel/deselectradio.js:29-37 | Two toggles restore `checked`, and restore the whole radio if its attributes were consistent. |
| `DeselectRadio.HandleClick` | grade/grading/form/rubric/amd/src/grades/grader/gradingpanel/deselectradio.js:24-39 | In one handler run, a click outside a radio fails, and so does an id no root element carries. Otherwise the first element with that id is toggled. When that element becomes checked, the other radios of its group lose their checked state, and their attributes are left as they were. Every other element is unchanged. |
| `DeselectRadio.ClickChangesOnlyThatId` | grade/grading/form/rubric/amd/src/grades/grader/gradingpanel/deselectradio.js:27-37 | A handler run never checks a radio with another id and never changes its id, name or attributes. A radio outside the looked-up radio's group is untouched. |
| `DeselectRadio.MutateTwiceRestores` | grade/grading/form/rubric/amd/src/grades/grader/gradingpanel/deselectradio.js:29-37 | Two runs on one radio restore every checked state iff no other radio of its group was checked. They restore the whole root if, in addition, that radio was consistent. |
| `DeselectRadio.ClickTwiceRestores` | grade/grading/form/rubric/amd/src/grades/grader/gradingpanel/deselectradio.js:26-38 | When no other radio of the looked-up radio's group was checked, two handler runs on the same id restore every checked state. |
| `DeselectRadio.ClickTwiceRestoresRoot` | grade/grading/form/rubric/amd/src/grades/grader/gradingpanel/deselectradio.js:26-38 | If, in addition, the looked-up radio was consistent, two handler runs give back the whole root. |
| `DeselectRadio.ClickTwiceUnchecksGroupMate` | grade/grading/form/rubric/amd/src/grades/grader/gradingpanel/deselectradio.js:26-38 | Every group mate of the looked-up radio is unchecked after two handler runs, so a checked mate is not restored. |
| `DeselectRadio.ClickKeepsOneCheckedPerGroup` | grade/grading/form/rubric/amd/src/grades/grader/gradingpanel/deselectradio.js:29-37 | If at most one radio of each group was checked, the same holds after a handler run. |
| `DeselectRadio.CheckingLeavesGroupMateStale` | grade/grading/form/rubric/amd/src/grades/grader/gradingpanel/deselectradio.js:33-36 | Checking an unchecked radio unchecks its checked group mate. The mate's `aria-checked` still says 'true', and a second run does not check the mate again. |
| `SummaryFilters.FilterParams` | mod/forum/report/summary/amd/src/filters.js:51 | The link's search string minus its first character. Putting that character back gives the search string. |
| `SummaryFilters.GenerateWithFilters` | mod/forum/report/summary/amd/src/filters.js:45-57 | With an event, the action becomes the old action, then '&', then the link parameters, and it splits back into those parts. Without an event the action is unchanged. Either way the form is submitted and nothing else changes. |
| `SummaryFilters.SubmitWithFilter` | mod/forum/report/summary/amd/src/filters.js:75-81 | Hides the given popover and submits with the action unchanged. |
| `SummaryFilters.CanOpenFilter` | mod/forum/report/summary/amd/src/filters.js:92-99 | If any element is marked open it refuses and changes nothing. Otherwise it marks exactly the trigger and allows. |
| `SummaryFilters.OpenFilter` | mod/forum/report/summary/amd/src/filters.js:121-142 | Opens iff nothing is marked open. An opened popover is shown, its trigger is outlined and expanded, the trigger is the only element marked open, and nothing else changes. A refused attempt changes nothing. |
| `SummaryFilters.SelectAllGroups` | mod/forum/report/summary/amd/src/filters.js:104-109 | Every group checkbox ends checked, and nothing else changes. |
| `SummaryFilters.ClearGroups` | mod/forum/report/summary/amd/src/filters.js:112-118 | Every group checkbox ends unchecked, and nothing else changes. |
| `SummaryFilters.LastGroupActionWins` | mod/forum/report/summary/amd/src/filters.js:104-118 | Between select-all and clear, the later one decides the checkboxes. |
| `SummaryFilters.EnabledFlag` | mod/forum/report/summary/amd/src/filters.js:212-216 | An enabled field is 1 iff its checkbox is checked, and 0 otherwise. |
| `SummaryFilters.DateArgs` | mod/forum/report/summary/amd/src/filters.js:181-192 | The request carries the popover's day, month and year, with enabled = 1 iff checked. |
| `SummaryFilters.DatesSaved` | mod/forum/report/summary/amd/src/filters.js:202-226 | With warnings, it shows the first warning's message and nothing else changes. Without warnings, it copies both timestamps and sets each enabled field from its checkbox. It also resets the change checker, hides the dates popover and submits with the action unchanged. Nothing else changes. |
| `SummaryFilters.Apply` | mod/forum/report/summary/amd/src/filters.js:59-177 | No handler removes an open marker. A page with at most one marker keeps at most one. |
| `SummaryFilters.OpenMarkerLatches` | mod/forum/report/summary/amd/src/filters.js:92-99 | After any run of events at most one element is marked open, and a marker, once set, stays. |
| `SummaryFilters.NoSecondFilterOpens` | mod/forum/report/summary/amd/src/filters.js:121-124 | Once a filter has been opened, no later trigger opens another popover. |
| `ReportScope.PerPageOf` | mod/forum/report/summary/index.php:10 | `perpage` defaults to 10 when not supplied. |
| `ReportScope.Resolve` | mod/forum/report/summary/index.php:7-29 | A positive forumid with no forum record is an error. With neither id positive, the request is an error. A positive forumid takes the forum's course and name; otherwise a positive courseid covers all its forums. The forumid and perpage are passed through. |
| `ReportScope.ForumIdOverridesCourseId` | mod/forum/report/summary/index.php:7-22 | With a positive forumid, the supplied courseid never changes the outcome. |
| `ReportScope.ResolvedCourseIsPositive` | mod/forum/report/summary/index.php:13-26 | If every forum's course is positive, a resolved report covers a positive course id. |

## Findings

| source | as written | input that shows it | evidently intended | confidence | as-written member | corrected member |
|---|---|---|---|---|---|---|
| grade/grading/form/rubric/classes/gradingpanel.php:88 | `instance_update_required` tests the undeclared property `has_current_instance` instead of calling the method of that name. The property reads as null, so it always returns false. | A current instance with status NEEDUPDATE | True iff a current instance exists and its status is NEEDUPDATE | high; not executed | `RubricPanel.InstanceUpdateRequiredAsWritten` (shown by `RubricPanel.InstanceUpdateRequiredDiscrepancy`) | `RubricPanel.InstanceUpdateRequired` |
| grade/grading/form/rubric/classes/gradingpanel.php:107-112 | `stored_rubric_has_changes` compares each stored criterion with the local `$value`. Its only write (line 107) sets `savedlevelid`, so the `levelid` and `remark` keys it reads at lines 110-111 are never set, and stored criteria are compared against nulls. | Submitting exactly the stored filling `{7: level 3}` still reports a change | Compare the stored filling with the panel's values (`get_values()`) | medium; not executed | `RubricPanel.StoredRubricHasChangesAsWritten` (shown by `RubricPanel.StoredRubricHasChangesDiscrepancy`) | `RubricPanel.StoredRubricHasChanges` |

`RubricPanel.GetData` and `RubricPanel.RestoredFromDraft` use the corrected
members. `RubricPanel.GetDataAsWritten` and
`RubricPanel.RestoredFromDraftAsWritten` follow the code as it runs.

## Left out

- The report's filtered SQL query builder is not modelled. `summary_table.php` defines no filters, and `add_filter` and `FILTER_GROUPS` used by `renderer.php` do not exist. `renderer.php:45` also passes four arguments to the three-parameter `filters` constructor. Its action URL lands in the `array $filterdata` parameter, which raises a TypeError, so the modelled constructor is not reachable from that caller.
- The web-service schemas (`fetch.php`, `externallib.php`), export, page setup and the dates form are framework plumbing. `fetch.php:146` also builds `gradingpanel` with two of its three constructor arguments, which raises an ArgumentCountError, so the modelled panel is not reachable from that caller.
- The async layout and template orchestration of `mod/forum/amd/src/local/grades/grader.js` is not modelled. It calls `buildPicker` without `showUserCallback`, so `showUser`'s call of the callback would throw. The picker is modelled without that callback.
- The older copy `mod/forum/report/summary/amd/filters.js` is superseded by `amd/src/filters.js`.
- `SummaryFilters.GenerateWithFilters`: the click target is assumed to be the link itself. The handlers are delegated to `a` elements, so a click on an element inside a link has no `search`. The source then throws after it has already called `preventDefault`.
- Rendering, templates, Popper positioning, focus moves, `preventDefault` and the Ajax transport are not modelled. The dates reply is an input to `SummaryFilters.DatesSaved`.
- Capability checks, login, the database and the controller's criteria and description are not modelled. Their answers are fields of the input records.
- PHP loose comparison and JavaScript `parseInt` coercion are not modelled: ids, directions and the date parts are integers, and a `NaN` direction is not represented. The date filter reads day, month and year as the string `.value` of its selects; the model takes them as already-parsed integers. In `stored_rubric_has_changes`, null equals 0 for levels and "" for remarks; numeric-string equality between remarks is not modelled.
- PARAM_INT cleaning of non-numeric request parameters is not modelled.
- `ForumGrader.BuildEntry`: the source mutates the shared parent objects. When two replies share a parent, every built entry for that parent ends up showing the last reply. The model gives each entry its own reply.
- Group names and the allowed-group list come from `groups_get_activity_allowed_groups`, and the "all groups" label is a language string. All three are parameters.
- `RubricPanel.GetData` and `RubricPanel.RestoredFromDraft` model the corrected program: their update and change flags differ from what the code computes. The code as it runs is `RubricPanel.GetDataAsWritten` and `RubricPanel.RestoredFromDraftAsWritten`.
- `DeselectRadio.HandleClick` models one run of the click listener on the radios as the listener finds them. The rule that the listener's own `checked = true` unchecks the radio's group mates is modelled; the mates' `aria-checked` and `tabindex` stay stale. The browser's radio activation is not modelled. It runs before the listener, checking the clicked radio and unchecking the rest of its group. With activation, clicking an unchecked radio leaves it unchecked, because the handler then sees it checked. All radios of the root are assumed to share one form, so a group is the radios with the same non-empty name.
- `DeselectRadio.ClickChangesOnlyThatId` no longer promises that radios with another id are untouched. A group mate of a radio the run checks loses its checked state.
- `DeselectRadio.ClickTwiceRestores` promises restored checked states only when no other radio of the group was checked. Otherwise the run that checks the radio unchecks that mate, and nothing checks it again; `DeselectRadio.ClickTwiceUnchecksGroupMate` states that case.
- `DeselectRadio.FindById` treats `querySelector('#' + id)` as an exact id match, so ids are assumed to be plain CSS identifiers. An empty id, or one starting with a digit, makes the real selector throw a SyntaxError. An id such as `a.b` would select by id and class.

=== FILE: base.dfy ===
/** Failure-carrying wrappers shared by every module of the model. */
module Base {

  /** An optional value: `None` stands for PHP `null` / JavaScript `undefined`. */
  datatype Option<+T> = None | Some(value: T) {

    /** The carried value, or `default` when there is none. */
    function GetOr(default: T): T {
      match this
      case Some(v) => v
      case None => default
    }
  }

  /** The outcome of an operation that may throw: `Err` models the exception. */
  datatype Result<+T, +E> = Ok(value: T) | Err(error: E)
}

=== FILE: comparison.dfy ===
/**
 * Dirty-form detection for the grading panel: a form differs from its
 * defaults when some element, judged by a rule chosen by its type, does.
 */
module Comparison {

  /** One `<option>` of a select element. */
  datatype SelectOption = SelectOption(defaultSelected: bool, selected: bool)

  /**
   * A form control as the browser exposes it: its `type` string and the
   * current/default state that the rule for that type reads.
   */
  datatype FormElement = FormElement(
    kind: string,
    defaultChecked: bool,
    checked: bool,
    defaultValue: string,
    value: string,
    options: seq<SelectOption>)

  /** The value a select-one reports for its "choose…" placeholder. */
  const Placeholder: string := "-1"

  /** Some option's selection differs from its default (the inner `some`). */
  function OptionsChanged(options: seq<SelectOption>): (r: bool)
    ensures r <==> exists i :: 0 <= i < |options| && options[i].defaultSelected != options[i].selected
  {
    if |options| == 0 then false
    else if options[0].defaultSelected != options[0].selected then true
    else
      var rest := OptionsChanged(options[1..]);
      assert forall i :: 1 <= i < |options| ==> options[i] == options[1..][i - 1];
      rest
  }

  /** The callback given to `some`: is this one element dirty? */
  function IsDirty(e: FormElement): (r: bool)
    ensures e.kind == "submit" || e.kind == "button" ==> !r
    ensures e.kind == "radio" || e.kind == "checkbox" ==> (r <==> e.defaultChecked != e.checked)
    ensures e.kind == "textarea" || e.kind == "number" ==> (r <==> e.defaultValue != e.value)
    ensures e.kind == "select-one" && e.value == Placeholder ==> !r
    ensures e.kind == "select-one" && e.value != Placeholder ==>
              (r <==> exists o :: o in e.options && o.defaultSelected != o.selected)
    ensures r ==> e.kind in {"radio", "checkbox", "textarea", "number", "select-one"}
  {
    if e.kind == "submit" || e.kind == "button" then false
    else if e.kind == "radio" || e.kind == "checkbox" then e.defaultChecked != e.checked
    else if e.kind == "textarea" || e.kind == "number" then e.defaultValue != e.value
    else if e.kind == "select-one" then
      if e.value == Placeholder then false
      else
        var changed := OptionsChanged(e.options);
        assert changed ==> exists i :: 0 <= i < |e.options| && e.options[i] in e.options
                                       && e.options[i].defaultSelected != e.options[i].selected;
        changed
    else
      // The callback falls through and returns `undefined`, which `some` reads as false.
      false
  }

  /** `compareData`: `Array.prototype.some` over the form's elements, in order. */
  function CompareData(form: seq<FormElement>): (r: bool)
    ensures r <==> exists i :: 0 <= i < |form| && IsDirty(form[i])
  {
    if |form| == 0 then false
    else if IsDirty(form[0]) then true
    else
      var rest := CompareData(form[1..]);
      assert forall i :: 1 <= i < |form| ==> form[i] == form[1..][i - 1];
      rest
  }

  /** Adding elements to a dirty form leaves it dirty. */
  lemma AppendKeepsDirty(form: seq<FormElement>, more: seq<FormElement>)
    requires CompareData(form)
    ensures CompareData(form + more)
  {
    var i :| 0 <= i < |form| && IsDirty(form[i]);
    assert (form + more)[i] == form[i];
  }

  /** Elements that can never be dirty do not change the verdict wherever they are added. */
  lemma InertElementsIgnored(form: seq<FormElement>, inert: FormElement)
    requires inert.kind !in {"radio", "checkbox", "textarea", "number", "select-one"}
    ensures CompareData(form + [inert]) == CompareData(form)
    ensures CompareData([inert] + form) == CompareData(form)
  {
    if CompareData(form + [inert]) {
      var i :| 0 <= i < |form + [inert]| && IsDirty((form + [inert])[i]);
      assert i < |form| && form[i] == (form + [inert])[i];
    }
    if CompareData([inert] + form) {
      var i :| 0 <= i < |[inert] + form| && IsDirty(([inert] + form)[i]);
      assert 0 < i && form[i - 1] == ([inert] + form)[i];
    }
    if CompareData(form) {
      var i :| 0 <= i < |form| && IsDirty(form[i]);
      assert (form + [inert])[i] == form[i];
      assert ([inert] + form)[i + 1] == form[i];
    }
  }
}

=== FILE: deselect_radio.dfy ===
/**
 * Deselectable rubric radios: a click on a level's radio flips its checked
 * state and keeps `aria-checked` and `tabindex` in step with it.
 *
 * Setting a radio's `checked` to true also unchecks every other radio of its
 * group, as HTML requires; the handler does not touch their attributes.
 */
module DeselectRadio {
  import opened Base

  /**
   * A radio input inside the rubric's root node: its id, its `name` ("" when
   * absent), its checked state, and its accessibility attributes (`None` when absent).
   */
  datatype Radio = Radio(id: string, name: string, checked: bool, ariaChecked: Option<string>, tabindex: Option<string>)

  /**
   * The handler's two failure points: the click was not inside a radio
   * (`closest` gives null), or no element in the root has the radio's id.
   */
  datatype ClickError = NotOnRadio | NoElementWithId

  /**
   * Two radios of the root belong to one radio button group when they carry
   * the same non-empty name (all radios of the root share one form).
   */
  predicate SameGroup(a: Radio, b: Radio) {
    a.name != "" && a.name == b.name
  }

  /** At most one radio of each group is checked, as HTML keeps it for user input. */
  predicate OneCheckedPerGroup(root: seq<Radio>) {
    forall i, j :: 0 <= i < |root| && 0 <= j < |root| && i != j && root[i].checked && root[j].checked ==>
      !SameGroup(root[i], root[j])
  }

  /** The accessibility attributes agree with the checked state. */
  predicate Consistent(r: Radio) {
    && r.ariaChecked == Some(if r.checked then "true" else "false")
    && r.tabindex == Some(if r.checked then "0" else "-1")
  }

  /** `querySelector('#id')` within the root: the first radio carrying that id. */
  function FindById(root: seq<Radio>, id: string): (r: Option<nat>)
    ensures r.Some? ==> r.value < |root| && root[r.value].id == id
    ensures r.Some? ==> forall j :: 0 <= j < r.value ==> root[j].id != id
    ensures r.None? <==> forall j :: 0 <= j < |root| ==> root[j].id != id
  {
    if |root| == 0 then None
    else if root[0].id == id then Some(0)
    else
      match FindById(root[1..], id)
      case None => None
      case Some(k) => Some(k + 1)
  }

  /** The two branches of the handler applied to the element found. */
  function Toggle(r: Radio): (t: Radio)
    ensures t.checked == !r.checked
    ensures t.id == r.id && t.name == r.name
    ensures Consistent(t)
  {
    if r.checked then r.(checked := false, ariaChecked := Some("false"), tabindex := Some("-1"))
    else r.(checked := true, ariaChecked := Some("true"), tabindex := Some("0"))
  }

  /** Toggling twice gives back a radio that was consistent. */
  lemma ToggleTwice(r: Radio)
    ensures Toggle(Toggle(r)).checked == r.checked
    ensures Consistent(r) ==> Toggle(Toggle(r)) == r
  {
  }

  /**
   * The root after the handler has run on `root[k]`: that radio is toggled,
   * and when it becomes checked its group mates are unchecked.
   */
  function Mutate(root: seq<Radio>, k: nat): seq<Radio>
    requires k < |root|
  {
    seq(|root|, j requires 0 <= j < |root| =>
      if j == k then Toggle(root[k])
      else if !root[k].checked && SameGroup(root[k], root[j]) then root[j].(checked := false)
      else root[j])
  }

  /**
   * One run of the click handler `init` installs, given the id of the radio
   * around the click target and the radios as the handler finds them.
   */
  function HandleClick(root: seq<Radio>, clicked: Option<string>): (r: Result<seq<Radio>, ClickError>)
    ensures clicked.None? <==> r == Err(NotOnRadio)
    ensures r == Err(NoElementWithId) <==>
              clicked.Some? && forall j :: 0 <= j < |root| ==> root[j].id != clicked.value
    ensures r.Ok? ==> |r.value| == |root|
    ensures r.Ok? ==>
              FindById(root, clicked.value).Some?
              && var k := FindById(root, clicked.value).value;
              && r.value[k] == Toggle(root[k])
              && (forall j :: 0 <= j < |root| && j != k ==>
                    r.value[j] == (if !root[k].checked && SameGroup(root[k], root[j])
                                   then root[j].(checked := false) else root[j]))
  {
    match clicked
    case None => Err(NotOnRadio)
    case Some(id) =>
      match FindById(root, id)
      case None => Err(NoElementWithId)
      case Some(k) => Ok(Mutate(root, k))
  }

  /**
   * A handler run never touches the attributes of a radio with another id
   * and never checks it; a radio outside the looked-up radio's group is left
   * exactly as it was.
   */
  lemma ClickChangesOnlyThatId(root: seq<Radio>, id: string, j: int)
    requires HandleClick(root, Some(id)).Ok?
    requires 0 <= j < |root| && root[j].id != id
    ensures var after := HandleClick(root, Some(id)).value[j];
            && after.(checked := root[j].checked) == root[j]
            && (after.checked ==> root[j].checked)
            && (!SameGroup(root[FindById(root, id).value], root[j]) ==> after == root[j])
  {
  }

  /** Mutating a radio keeps every id, so the first radio with an id is still the first. */
  lemma MutateKeepsFirstMatch(root: seq<Radio>, k: nat, id: string)
    requires FindById(root, id) == Some(k)
    ensures FindById(Mutate(root, k), id) == Some(k)
  {
    var once := Mutate(root, k);
    assert once[k].id == id;
    assert forall j :: 0 <= j < k ==> once[j].id == root[j].id != id;
    var m := FindById(once, id).value;
    assert m <= k && k <= m;
  }

  /** A successful run mutates the first radio with the id, and leaves that radio the first one with it. */
  lemma RunIsMutate(root: seq<Radio>, id: string)
    requires HandleClick(root, Some(id)).Ok?
    ensures FindById(root, id).Some?
    ensures HandleClick(root, Some(id)) == Ok(Mutate(root, FindById(root, id).value))
    ensures FindById(Mutate(root, FindById(root, id).value), id) == FindById(root, id)
  {
    MutateKeepsFirstMatch(root, FindById(root, id).value, id);
  }

  /** No radio of `root[k]`'s group other than itself is checked. */
  predicate NoCheckedGroupMate(root: seq<Radio>, k: nat)
    requires k < |root|
  {
    forall j :: 0 <= j < |root| && j != k && SameGroup(root[k], root[j]) ==> !root[j].checked
  }

  /**
   * Two runs on the same radio: exactly one of them checks it, so its group
   * mates end up unchecked and everything else is as before.
   */
  lemma MutateTwice(root: seq<Radio>, k: nat)
    requires k < |root|
    ensures var twice := Mutate(Mutate(root, k), k);
            && |twice| == |root|
            && twice[k] == Toggle(Toggle(root[k]))
            && forall j :: 0 <= j < |root| && j != k ==>
                 twice[j] == (if SameGroup(root[k], root[j]) then root[j].(checked := false) else root[j])
  {
    var once := Mutate(root, k);
    assert once[k] == Toggle(root[k]);
    forall j | 0 <= j < |root| && j != k
      ensures SameGroup(once[k], once[j]) == SameGroup(root[k], root[j])
    {
    }
  }

  /** Two runs on one radio restore the checked states exactly when no group mate was checked. */
  lemma MutateTwiceRestores(root: seq<Radio>, k: nat)
    requires k < |root|
    ensures (forall j :: 0 <= j < |root| ==> Mutate(Mutate(root, k), k)[j].checked == root[j].checked)
            <==> NoCheckedGroupMate(root, k)
    ensures NoCheckedGroupMate(root, k) && Consistent(root[k]) ==> Mutate(Mutate(root, k), k) == root
  {
    var twice := Mutate(Mutate(root, k), k);
    MutateTwice(root, k);
    ToggleTwice(root[k]);
    if NoCheckedGroupMate(root, k) {
      forall j | 0 <= j < |root|
        ensures twice[j].checked == root[j].checked
        ensures Consistent(root[k]) ==> twice[j] == root[j]
      {
      }
    } else {
      var j :| 0 <= j < |root| && j != k && SameGroup(root[k], root[j]) && root[j].checked;
      assert !twice[j].checked;
    }
  }

  /**
   * When no other radio of the looked-up radio's group was checked, two
   * handler runs on its id restore every checked state.
   */
  lemma ClickTwiceRestores(root: seq<Radio>, id: string)
    requires HandleClick(root, Some(id)).Ok?
    requires NoCheckedGroupMate(root, FindById(root, id).value)
    ensures var twice := HandleClick(HandleClick(root, Some(id)).value, Some(id));
            && twice.Ok? && |twice.value| == |root|
            && forall j :: 0 <= j < |root| ==> twice.value[j].checked == root[j].checked
  {
    var k := FindById(root, id).value;
    RunIsMutate(root, id);
    var once := Mutate(root, k);
    RunIsMutate(once, id);
    assert HandleClick(root, Some(id)).value == once;
    assert HandleClick(once, Some(id)) == Ok(Mutate(once, k));
    MutateTwiceRestores(root, k);
  }

  /** If, in addition, the looked-up radio was consistent, two runs give back the whole root. */
  lemma ClickTwiceRestoresRoot(root: seq<Radio>, id: string)
    requires HandleClick(root, Some(id)).Ok?
    requires NoCheckedGroupMate(root, FindById(root, id).value)
    requires Consistent(root[FindById(root, id).value])
    ensures HandleClick(HandleClick(root, Some(id)).value, Some(id)) == Ok(root)
  {
    var k := FindById(root, id).value;
    RunIsMutate(root, id);
    var once := Mutate(root, k);
    RunIsMutate(once, id);
    assert HandleClick(root, Some(id)).value == once;
    assert HandleClick(once, Some(id)) == Ok(Mutate(once, k));
    MutateTwiceRestores(root, k);
  }

  /**
   * A group mate of the looked-up radio ends unchecked after two handler
   * runs on its id, so a mate that was checked is not restored.
   */
  lemma ClickTwiceUnchecksGroupMate(root: seq<Radio>, id: string, j: int)
    requires HandleClick(root, Some(id)).Ok?
    requires 0 <= j < |root| && j != FindById(root, id).value
    requires SameGroup(root[FindById(root, id).value], root[j])
    ensures var twice := HandleClick(HandleClick(root, Some(id)).value, Some(id));
            twice.Ok? && !twice.value[j].checked
  {
    var k := FindById(root, id).value;
    RunIsMutate(root, id);
    var once := Mutate(root, k);
    RunIsMutate(once, id);
    assert HandleClick(root, Some(id)).value == once;
    assert HandleClick(once, Some(id)) == Ok(Mutate(once, k));
    MutateTwice(root, k);
  }

  /** A handler run keeps at most one radio of each group checked. */
  lemma ClickKeepsOneCheckedPerGroup(root: seq<Radio>, id: string)
    requires OneCheckedPerGroup(root)
    requires HandleClick(root, Some(id)).Ok?
    ensures OneCheckedPerGroup(HandleClick(root, Some(id)).value)
  {
  }

  /**
   * Checking radio "a" unchecks its checked group mate "b", whose attributes
   * still say checked, and a second run does not check "b" again.
   */
  lemma CheckingLeavesGroupMateStale()
    ensures var root := [Radio("a", "level", false, Some("false"), Some("-1")),
                         Radio("b", "level", true, Some("true"), Some("0"))];
            var once := HandleClick(root, Some("a")).value;
            var twice := HandleClick(once, Some("a")).value;
            && !once[1].checked && !Consistent(once[1])
            && !twice[1].checked && twice != root
  {
    var root := [Radio("a", "level", false, Some("false"), Some("-1")),
                 Radio("b", "level", true, Some("true"), Some("0"))];
    assert FindById(root, "a") == Some(0);
    var once := HandleClick(root, Some("a")).value;
    assert once == Mutate(root, 0);
    assert FindById(once, "a") == Some(0);
  }
}

=== FILE: forum_grader.dfy ===
/**
 * The whole-forum grader: how a user's posts are grouped under the posts
 * they reply to before the content template renders them, and how a click
 * on a launch button is dispatched.
 */
module ForumGrader {
  import opened Base

  /**
   * A forum post as the repository returns it. `parentid` 0 stands for a
   * missing or null parent, which JavaScript reads as false.
   */
  datatype Post = Post(
    id: int,
    parentid: int,
    subject: Option<string>,
    readonly: bool,
    hasreplies: bool,
    replies: seq<Post>)

  /** A post as the grading screen shows it: no subject, not editable. */
  function Marked(p: Post): (q: Post)
    ensures q.subject.None? && q.readonly
    ensures q.(subject := p.subject, readonly := p.readonly) == p
  {
    p.(subject := None, readonly := true)
  }

  /**
   * The scan of the parent ids from index `i` on, remembering the last
   * index whose id equals `pid` (each match overwrites the previous one).
   */
  function ScanParents(parents: seq<Post>, pid: int, i: nat, found: Option<nat>): (r: Option<nat>)
    requires i <= |parents|
    requires found.Some? ==> found.value < i && parents[found.value].id == pid
    requires found.Some? ==> forall j :: found.value < j < i ==> parents[j].id != pid
    requires found.None? ==> forall j :: 0 <= j < i ==> parents[j].id != pid
    ensures r.Some? ==> r.value < |parents| && parents[r.value].id == pid
    ensures r.Some? ==> forall j :: r.value < j < |parents| ==> parents[j].id != pid
    ensures r.None? ==> forall j :: 0 <= j < |parents| ==> parents[j].id != pid
    decreases |parents| - i
  {
    if i == |parents| then found
    else if parents[i].id == pid then ScanParents(parents, pid, i + 1, Some(i))
    else ScanParents(parents, pid, i + 1, found)
  }

  /** The position of the parent post with id `pid`: the last one, or none. */
  function ParentIndex(parents: seq<Post>, pid: int): (r: Option<nat>)
    ensures r.Some? ==> r.value < |parents| && parents[r.value].id == pid
    ensures r.Some? ==> forall j :: r.value < j < |parents| ==> parents[j].id != pid
    ensures r.None? <==> forall j :: 0 <= j < |parents| ==> parents[j].id != pid
  {
    ScanParents(parents, pid, 0, None)
  }

  /** The `userposts.map` callback: a reply becomes its parent carrying it, anything else stays. */
  function BuildEntry(post: Post, parents: seq<Post>): (e: Post)
    ensures e.subject.None? && e.readonly
    ensures post.parentid == 0 ==> e == Marked(post)
    ensures (post.parentid != 0 && forall j :: 0 <= j < |parents| ==> parents[j].id != post.parentid)
              ==> e == Marked(post)
    ensures e != Marked(post) ==>
              e.hasreplies && e.replies == [Marked(post)] && e.id == post.parentid
              && exists j :: 0 <= j < |parents| && e == Marked(parents[j]).(hasreplies := true, replies := [Marked(post)])
    ensures forall k ::
              (0 <= k < |parents| && post.parentid != 0 && parents[k].id == post.parentid
               && (forall j :: k < j < |parents| ==> parents[j].id != post.parentid))
              ==> e == Marked(parents[k]).(hasreplies := true, replies := [Marked(post)])
  {
    if post.parentid == 0 then Marked(post)
    else
      match ParentIndex(parents, post.parentid)
      case None => Marked(post)
      case Some(k) => Marked(parents[k]).(hasreplies := true, replies := [Marked(post)])
  }

  /** The `posts.built` list: one entry per user post, in the same order. */
  function BuildPosts(userposts: seq<Post>, parents: seq<Post>): (built: seq<Post>)
    ensures |built| == |userposts|
    ensures forall i :: 0 <= i < |built| ==> built[i].subject.None? && built[i].readonly
  {
    seq(|userposts|, i requires 0 <= i < |userposts| => BuildEntry(userposts[i], parents))
  }

  /**
   * Every user post can be found in the built list at its own position,
   * either as the entry itself or as the single reply of its parent's entry.
   */
  lemma BuiltKeepsEveryUserPost(userposts: seq<Post>, parents: seq<Post>, i: int)
    requires 0 <= i < |userposts|
    ensures var e := BuildPosts(userposts, parents)[i];
            e == Marked(userposts[i]) || (e.replies == [Marked(userposts[i])] && e.id == userposts[i].parentid)
  {
  }

  /** A reply whose parent is among the parent posts is shown through that (last matching) parent. */
  lemma ReplyShownUnderParent(userposts: seq<Post>, parents: seq<Post>, i: int, k: int)
    requires 0 <= i < |userposts| && 0 <= k < |parents|
    requires userposts[i].parentid != 0 && parents[k].id == userposts[i].parentid
    requires forall j :: k < j < |parents| ==> parents[j].id != userposts[i].parentid
    ensures BuildPosts(userposts, parents)[i]
            == Marked(parents[k]).(hasreplies := true, replies := [Marked(userposts[i])])
  {
    var r := ParentIndex(parents, userposts[i].parentid);
    assert r.Some?;
  }

  // ---- launch dispatch --------------------------------------------------

  /** The data attributes of the closest gradable element around a click. */
  datatype GradableNode = GradableNode(
    wholeForum: bool,
    cmid: Option<int>,
    groupid: Option<int>,
    initialUserId: Option<int>)

  /** A document click: whether its target is a launch button, and its enclosing gradable node. */
  datatype Click = Click(onLaunch: bool, gradable: Option<GradableNode>)

  /** The two errors the listener throws. */
  datatype LaunchError = NoGradableItem | NoValidGradableItem

  /** What a click leads to; a launch also prevents the click's default action. */
  datatype Dispatch =
    | Ignored
    | LaunchGrader(cmid: Option<int>, groupid: Option<int>, initialUserId: Option<int>)
    | Thrown(error: LaunchError)

  /** The listener `registerLaunchListeners` installs. */
  function DispatchClick(c: Click): (d: Dispatch)
    ensures !c.onLaunch <==> d.Ignored?
    ensures d == Thrown(NoGradableItem) <==> c.onLaunch && c.gradable.None?
    ensures d == Thrown(NoValidGradableItem) <==> c.onLaunch && c.gradable.Some? && !c.gradable.value.wholeForum
    ensures d.LaunchGrader? <==> c.onLaunch && c.gradable.Some? && c.gradable.value.wholeForum
    ensures d.LaunchGrader? ==> d.cmid == c.gradable.value.cmid && d.groupid == c.gradable.value.groupid
                                && d.initialUserId == c.gradable.value.initialUserId
  {
    if !c.onLaunch then Ignored
    else
      match c.gradable
      case None => Thrown(NoGradableItem)
      case Some(node) =>
        if node.wholeForum then LaunchGrader(node.cmid, node.groupid, node.initialUserId)
        else Thrown(NoValidGradableItem)
  }
}

=== FILE: group_filters.dfy ===
/**
 * The groups part of the forum summary report's filter renderable: which
 * groups are offered, which are selected, and the checked/unchecked list
 * handed to the template.
 *
 * The PHP array of available groups (group id => name) keeps insertion
 * order and overwrites an existing key in place; it is modelled as a list
 * of entries with distinct ids.
 */
module GroupFilters {
  import opened Base

  /** The id of the "all groups" option. */
  const AllGroupsId: int := 0

  /** A group the current user may filter by. */
  datatype Group = Group(id: int, name: string)

  /** One key/value pair of the ordered `groupsavailable` array. */
  datatype Entry = Entry(groupid: int, groupname: string)

  /** The two properties the renderable fills in. */
  datatype GroupFilter = GroupFilter(available: seq<Entry>, selected: seq<int>)

  /** One element of the exported `filtergroups` list. */
  datatype TemplateGroup = TemplateGroup(groupid: int, groupname: string, checked: bool)

  /** The keys of the available array. */
  function Keys(available: seq<Entry>): set<int> {
    if |available| == 0 then {} else {available[0].groupid} + Keys(available[1..])
  }

  /** The ids of a list of groups. */
  function GroupIds(groups: seq<Group>): set<int> {
    if |groups| == 0 then {} else {groups[0].id} + GroupIds(groups[1..])
  }

  /** The keys of the available array, in array order. */
  function KeyList(available: seq<Entry>): (ks: seq<int>)
    ensures |ks| == |available|
    ensures forall x :: x in ks <==> x in Keys(available)
  {
    if |available| == 0 then []
    else
      var rest := KeyList(available[1..]);
      assert ([available[0].groupid] + rest)[1..] == rest;
      [available[0].groupid] + rest
  }

  /** The ids of a list of groups, in list order. */
  function IdList(groups: seq<Group>): (ids: seq<int>)
    ensures |ids| == |groups|
    ensures forall i :: 0 <= i < |groups| ==> ids[i] == groups[i].id
    ensures forall x :: x in ids <==> x in GroupIds(groups)
  {
    if |groups| == 0 then []
    else
      var rest := IdList(groups[1..]);
      assert ([groups[0].id] + rest)[1..] == rest;
      [groups[0].id] + rest
  }

  /** The entries `id => name` of a list of groups, in list order. */
  function Entries(groups: seq<Group>): seq<Entry> {
    seq(|groups|, i requires 0 <= i < |groups| => Entry(groups[i].id, groups[i].name))
  }

  /** The entries of a non-empty list: the first group's entry, then the rest's. */
  lemma EntriesCons(groups: seq<Group>)
    requires |groups| > 0
    ensures Entries(groups) == [Entry(groups[0].id, groups[0].name)] + Entries(groups[1..])
  {
    var tail := [Entry(groups[0].id, groups[0].name)] + Entries(groups[1..]);
    assert forall i :: 0 <= i < |groups| ==> Entries(groups)[i] == tail[i];
  }

  /** No id occurs twice in the list. */
  predicate Distinct(ids: seq<int>) {
    |ids| == 0 || (ids[0] !in ids[1..] && Distinct(ids[1..]))
  }

  /** No key occurs twice, as in any PHP array. */
  predicate DistinctKeys(available: seq<Entry>) {
    Distinct(KeyList(available))
  }

  /** No two groups share an id. */
  predicate DistinctGroupIds(groups: seq<Group>) {
    Distinct(IdList(groups))
  }

  /** An array with one more entry in front has distinct keys iff that key is new and the rest are distinct. */
  lemma {:induction false} DistinctKeysCons(e: Entry, available: seq<Entry>)
    ensures ([e] + available)[1..] == available
    ensures Keys([e] + available) == {e.groupid} + Keys(available)
    ensures DistinctKeys([e] + available) <==> e.groupid !in Keys(available) && DistinctKeys(available)
  {
    assert ([e] + available)[1..] == available;
    assert KeyList([e] + available) == [e.groupid] + KeyList(available);
    assert ([e.groupid] + KeyList(available))[1..] == KeyList(available);
  }

  /** `$groupsavailable[$id] = $name`: overwrite in place, or append a new key. */
  function Put(available: seq<Entry>, id: int, name: string): (r: seq<Entry>)
    ensures Keys(r) == Keys(available) + {id}
    ensures |r| == |available| || |r| == |available| + 1
    ensures forall i :: 0 <= i < |available| ==> r[i].groupid == available[i].groupid
    ensures Entry(id, name) in r
  {
    if |available| == 0 then [Entry(id, name)]
    else if available[0].groupid == id then
      assert ([Entry(id, name)] + available[1..])[1..] == available[1..];
      [Entry(id, name)] + available[1..]
    else
      var rest := Put(available[1..], id, name);
      assert ([available[0]] + rest)[1..] == rest;
      [available[0]] + rest
  }

  /** Assigning a key never makes two entries share a key. */
  lemma {:induction false} PutKeepsKeysDistinct(available: seq<Entry>, id: int, name: string)
    requires DistinctKeys(available)
    ensures DistinctKeys(Put(available, id, name))
  {
    if |available| > 0 {
      DistinctKeysCons(available[0], available[1..]);
      assert available == [available[0]] + available[1..];
      if available[0].groupid == id {
        DistinctKeysCons(Entry(id, name), available[1..]);
      } else {
        PutKeepsKeysDistinct(available[1..], id, name);
        DistinctKeysCons(available[0], Put(available[1..], id, name));
      }
    }
  }

  /** Assigning one key leaves every entry with another key where and as it was. */
  lemma {:induction false} PutKeepsOtherEntries(available: seq<Entry>, id: int, name: string)
    ensures forall i :: 0 <= i < |available| && available[i].groupid != id ==>
              Put(available, id, name)[i] == available[i]
  {
    if |available| > 0 && available[0].groupid != id {
      PutKeepsOtherEntries(available[1..], id, name);
    }
  }

  /** The filter data's groups, with a missing or empty entry read as no groups. */
  function GroupsData(filterGroups: Option<seq<int>>): (r: seq<int>)
    ensures filterGroups.Some? && |filterGroups.value| > 0 ==> r == filterGroups.value
    ensures |r| == 0 <==> filterGroups.None? || |filterGroups.value| == 0
  {
    match filterGroups
    case None => []
    case Some(ids) => ids
  }

  /** True when "all groups" alone is selected: no groups requested, or id 0 among them. */
  predicate SelectsAllGroups(requested: seq<int>) {
    |requested| == 0 || AllGroupsId in requested
  }

  /**
   * Reference definition of a selection without "all groups": the allowed
   * groups whose id was requested, in allowed-list order.
   */
  function RequestedAllowed(allowed: seq<Group>, requested: seq<int>): (r: seq<int>)
    ensures forall x :: x in r <==> x in requested && x in GroupIds(allowed)
    ensures |r| <= |allowed|
  {
    if |allowed| == 0 then []
    else
      var rest := RequestedAllowed(allowed[1..], requested);
      if allowed[0].id in requested then [allowed[0].id] + rest else rest
  }

  /** One iteration of the `foreach ($groups as $group)` loop. */
  function Step(acc: GroupFilter, requested: seq<int>, g: Group): GroupFilter {
    var selected :=
      if AllGroupsId !in acc.selected && g.id in requested then acc.selected + [g.id]
      else acc.selected;
    GroupFilter(Put(acc.available, g.id, g.name), selected)
  }

  /** The loop over the allowed groups still to be visited. */
  function Loop(acc: GroupFilter, requested: seq<int>, rest: seq<Group>): (r: GroupFilter)
    requires AllGroupsId in requested ==> AllGroupsId in acc.selected
    ensures AllGroupsId in acc.selected ==> r.selected == acc.selected
    decreases |rest|
  {
    if |rest| == 0 then acc
    else
      Loop(Step(acc, requested, rest[0]), requested, rest[1..])
  }

  /** The loop offers every group it visits, and keeps the keys distinct. */
  lemma {:induction false} LoopOffersVisitedGroups(acc: GroupFilter, requested: seq<int>, rest: seq<Group>)
    requires AllGroupsId in requested ==> AllGroupsId in acc.selected
    ensures Keys(Loop(acc, requested, rest).available) == Keys(acc.available) + GroupIds(rest)
    ensures DistinctKeys(acc.available) ==> DistinctKeys(Loop(acc, requested, rest).available)
    decreases |rest|
  {
    if |rest| > 0 {
      var next := Step(acc, requested, rest[0]);
      if DistinctKeys(acc.available) {
        PutKeepsKeysDistinct(acc.available, rest[0].id, rest[0].name);
      }
      LoopOffersVisitedGroups(next, requested, rest[1..]);
      assert GroupIds(rest) == {rest[0].id} + GroupIds(rest[1..]);
    }
  }

  /**
   * Without "all groups" selected, the loop appends exactly the reference
   * selection of the groups it visits.
   */
  lemma {:induction false} LoopSelectsRequested(acc: GroupFilter, requested: seq<int>, rest: seq<Group>)
    requires AllGroupsId in requested ==> AllGroupsId in acc.selected
    ensures AllGroupsId !in acc.selected ==>
              Loop(acc, requested, rest).selected == acc.selected + RequestedAllowed(rest, requested)
    decreases |rest|
  {
    if AllGroupsId !in acc.selected {
      if |rest| == 0 {
        assert acc.selected + [] == acc.selected;
      } else {
        var g := rest[0];
        var sel := if g.id in requested then acc.selected + [g.id] else acc.selected;
        var next := Step(acc, requested, g);
        assert next.selected == sel;
        assert AllGroupsId !in sel;
        LoopSelectsRequested(next, requested, rest[1..]);
        var tail := RequestedAllowed(rest[1..], requested);
        assert Loop(acc, requested, rest).selected == sel + tail;
        if g.id in requested {
          assert RequestedAllowed(rest, requested) == [g.id] + tail;
          AppendAssociates(acc.selected, [g.id], tail);
        } else {
          assert RequestedAllowed(rest, requested) == tail;
        }
      }
    }
  }

  /** Concatenation regroups freely. */
  lemma AppendAssociates<T>(a: seq<T>, b: seq<T>, c: seq<T>)
    ensures a + (b + c) == (a + b) + c
  {
  }

  /** Every selected id stays an offered key. */
  lemma {:induction false} LoopSelectsOfferedGroups(acc: GroupFilter, requested: seq<int>, rest: seq<Group>)
    requires AllGroupsId in requested ==> AllGroupsId in acc.selected
    requires forall x :: x in acc.selected ==> x in Keys(acc.available)
    ensures forall x :: x in Loop(acc, requested, rest).selected ==> x in Keys(Loop(acc, requested, rest).available)
    decreases |rest|
  {
    if |rest| > 0 {
      var next := Step(acc, requested, rest[0]);
      assert Keys(next.available) == Keys(acc.available) + {rest[0].id};
      LoopSelectsOfferedGroups(next, requested, rest[1..]);
    }
  }

  /**
   * The loop keeps the entries already in the array at their positions, and
   * leaves an entry untouched unless a later group has its id.
   */
  lemma {:induction false} LoopKeepsEarlierEntries(acc: GroupFilter, requested: seq<int>, rest: seq<Group>)
    requires AllGroupsId in requested ==> AllGroupsId in acc.selected
    ensures var r := Loop(acc, requested, rest);
      && |acc.available| <= |r.available| <= |acc.available| + |rest|
      && (forall i :: 0 <= i < |acc.available| ==> r.available[i].groupid == acc.available[i].groupid)
      && (forall i :: 0 <= i < |acc.available| && acc.available[i].groupid !in GroupIds(rest) ==>
            r.available[i] == acc.available[i])
    decreases |rest|
  {
    if |rest| > 0 {
      PutKeepsOtherEntries(acc.available, rest[0].id, rest[0].name);
      LoopKeepsEarlierEntries(Step(acc, requested, rest[0]), requested, rest[1..]);
    }
  }

  /** A group list has distinct ids iff its first id is new and the rest have distinct ids. */
  lemma {:induction false} DistinctGroupIdsCons(groups: seq<Group>)
    requires |groups| > 0
    ensures DistinctGroupIds(groups) <==> groups[0].id !in GroupIds(groups[1..]) && DistinctGroupIds(groups[1..])
  {
    assert IdList(groups) == [groups[0].id] + IdList(groups[1..]);
    assert IdList(groups)[1..] == IdList(groups[1..]);
  }

  /** Assigning a key the array does not have appends its entry at the end. */
  lemma {:induction false} PutAppendsNewKey(available: seq<Entry>, id: int, name: string)
    requires id !in Keys(available)
    ensures Put(available, id, name) == available + [Entry(id, name)]
  {
    if |available| > 0 {
      PutAppendsNewKey(available[1..], id, name);
      AppendAssociates([available[0]], available[1..], [Entry(id, name)]);
      assert [available[0]] + available[1..] == available;
    }
  }

  /**
   * Groups with distinct ids that are not keys yet are appended by the loop
   * in list order, each with its name.
   */
  lemma {:induction false} LoopAppendsNewGroups(acc: GroupFilter, requested: seq<int>, rest: seq<Group>)
    requires AllGroupsId in requested ==> AllGroupsId in acc.selected
    ensures DistinctGroupIds(rest) && GroupIds(rest) !! Keys(acc.available) ==>
              Loop(acc, requested, rest).available == acc.available + Entries(rest)
    decreases |rest|
  {
    if |rest| == 0 {
      assert acc.available + Entries(rest) == acc.available;
    } else if DistinctGroupIds(rest) && GroupIds(rest) !! Keys(acc.available) {
      var g := rest[0];
      var e := Entry(g.id, g.name);
      DistinctGroupIdsCons(rest);
      assert GroupIds(rest) == {g.id} + GroupIds(rest[1..]);
      PutAppendsNewKey(acc.available, g.id, g.name);
      var next := Step(acc, requested, g);
      assert next.available == acc.available + [e];
      assert GroupIds(rest[1..]) !! Keys(next.available);
      LoopAppendsNewGroups(next, requested, rest[1..]);
      EntriesCons(rest);
      AppendAssociates(acc.available, [e], Entries(rest[1..]));
    }
  }

  /** A first id that no later group repeats is not among the later ids. */
  lemma LastIdNotLater(groups: seq<Group>)
    requires |groups| > 0
    requires forall j :: 0 < j < |groups| ==> groups[j].id != groups[0].id
    ensures groups[0].id !in GroupIds(groups[1..])
  {
    var later := groups[1..];
    var ids := IdList(later);
    assert forall k :: 0 <= k < |ids| ==> ids[k] == later[k].id == groups[k + 1].id;
    assert groups[0].id !in ids;
  }

  /** The last group carrying an id gives that key its name. */
  lemma {:induction false} LoopKeepsLastName(acc: GroupFilter, requested: seq<int>, rest: seq<Group>, i: int)
    requires AllGroupsId in requested ==> AllGroupsId in acc.selected
    requires 0 <= i < |rest|
    requires forall j :: i < j < |rest| ==> rest[j].id != rest[i].id
    ensures Entry(rest[i].id, rest[i].name) in Loop(acc, requested, rest).available
    decreases |rest|
  {
    var g := rest[0];
    var next := Step(acc, requested, g);
    if i == 0 {
      var e := Entry(g.id, g.name);
      assert e in next.available;
      var p :| 0 <= p < |next.available| && next.available[p] == e;
      LastIdNotLater(rest);
      LoopKeepsEarlierEntries(next, requested, rest[1..]);
      assert Loop(next, requested, rest[1..]).available[p] == e;
    } else {
      assert rest[1..][i - 1] == rest[i];
      LoopKeepsLastName(next, requested, rest[1..], i - 1);
    }
  }

  /** Every group that is the last one with its id supplies its entry. */
  lemma LoopKeepsLastNames(acc: GroupFilter, requested: seq<int>, rest: seq<Group>)
    requires AllGroupsId in requested ==> AllGroupsId in acc.selected
    ensures forall i :: 0 <= i < |rest| && (forall j :: i < j < |rest| ==> rest[j].id != rest[i].id) ==>
              Entry(rest[i].id, rest[i].name) in Loop(acc, requested, rest).available
  {
    forall i | 0 <= i < |rest| && (forall j :: i < j < |rest| ==> rest[j].id != rest[i].id)
      ensures Entry(rest[i].id, rest[i].name) in Loop(acc, requested, rest).available
    {
      LoopKeepsLastName(acc, requested, rest, i);
    }
  }

  /**
   * `prepare_groups_data`: "all groups" is always offered, every allowed
   * group is offered, and the selection is either exactly "all groups" or
   * the allowed groups that were requested.
   */
  function PrepareGroups(requested: seq<int>, allowed: seq<Group>, allGroupsLabel: string): (r: GroupFilter)
    ensures AllGroupsId in Keys(r.available)
    ensures 1 <= |r.available| <= 1 + |allowed|
    ensures r.available[0].groupid == AllGroupsId
    ensures AllGroupsId !in GroupIds(allowed) ==> r.available[0] == Entry(AllGroupsId, allGroupsLabel)
    ensures Keys(r.available) == {AllGroupsId} + GroupIds(allowed)
    ensures DistinctKeys(r.available)
    ensures SelectsAllGroups(requested) ==> r.selected == [AllGroupsId]
    ensures !SelectsAllGroups(requested) ==> r.selected == RequestedAllowed(allowed, requested)
    ensures forall x :: x in r.selected ==> x in Keys(r.available)
    ensures DistinctGroupIds(allowed) && AllGroupsId !in GroupIds(allowed) ==>
              r.available == [Entry(AllGroupsId, allGroupsLabel)] + Entries(allowed)
    ensures forall i :: 0 <= i < |allowed| && (forall j :: i < j < |allowed| ==> allowed[j].id != allowed[i].id) ==>
              Entry(allowed[i].id, allowed[i].name) in r.available
  {
    var start := GroupFilter([Entry(AllGroupsId, allGroupsLabel)],
                             if SelectsAllGroups(requested) then [AllGroupsId] else []);
    DistinctKeysCons(Entry(AllGroupsId, allGroupsLabel), []);
    assert [Entry(AllGroupsId, allGroupsLabel)] + [] == start.available;
    LoopKeepsEarlierEntries(start, requested, allowed);
    LoopOffersVisitedGroups(start, requested, allowed);
    LoopSelectsRequested(start, requested, allowed);
    LoopSelectsOfferedGroups(start, requested, allowed);
    LoopAppendsNewGroups(start, requested, allowed);
    LoopKeepsLastNames(start, requested, allowed);
    Loop(start, requested, allowed)
  }

  /** The constructor: reads the optional `groups` filter data, then prepares the groups. */
  function NewFilters(filterGroups: Option<seq<int>>, allowed: seq<Group>, allGroupsLabel: string): (r: GroupFilter)
    ensures filterGroups.None? ==> r.selected == [AllGroupsId]
    ensures filterGroups == Some([]) ==> r.selected == [AllGroupsId]
  {
    PrepareGroups(GroupsData(filterGroups), allowed, allGroupsLabel)
  }

  /** `export_for_template`: one entry per available group, in order, checked when selected. */
  function ExportForTemplate(f: GroupFilter): (r: seq<TemplateGroup>)
    ensures |r| == |f.available|
    ensures forall i :: 0 <= i < |r| ==>
              r[i].groupid == f.available[i].groupid && r[i].groupname == f.available[i].groupname
    ensures forall i :: 0 <= i < |r| ==> (r[i].checked <==> r[i].groupid in f.selected)
  {
    seq(|f.available|, i requires 0 <= i < |f.available| =>
      TemplateGroup(f.available[i].groupid, f.available[i].groupname, f.available[i].groupid in f.selected))
  }

  /** With distinct allowed ids the reference selection has no duplicates. */
  lemma {:induction false} RequestedAllowedDistinct(allowed: seq<Group>, requested: seq<int>)
    requires DistinctGroupIds(allowed)
    ensures Distinct(RequestedAllowed(allowed, requested))
  {
    if |allowed| > 0 {
      RequestedAllowedDistinct(allowed[1..], requested);
      var rest := RequestedAllowed(allowed[1..], requested);
      if allowed[0].id in requested {
        assert ([allowed[0].id] + rest)[1..] == rest;
      }
    }
  }

  /** Selected groups never repeat when the allowed groups have distinct ids. */
  lemma SelectionDistinct(requested: seq<int>, allowed: seq<Group>, allLabel: string)
    requires DistinctGroupIds(allowed)
    ensures Distinct(PrepareGroups(requested, allowed, allLabel).selected)
  {
    if !SelectsAllGroups(requested) {
      RequestedAllowedDistinct(allowed, requested);
    }
  }

  /**
   * What the template shows for a request: with "all groups" selected only
   * its entry is checked; otherwise exactly the requested groups that are
   * allowed are checked.
   */
  lemma ExportChecksRequestedGroups(requested: seq<int>, allowed: seq<Group>, allLabel: string, i: int)
    requires 0 <= i < |ExportForTemplate(PrepareGroups(requested, allowed, allLabel))|
    ensures var t := ExportForTemplate(PrepareGroups(requested, allowed, allLabel))[i];
      if SelectsAllGroups(requested) then (t.checked <==> t.groupid == AllGroupsId)
      else (t.checked <==> t.groupid in requested && t.groupid in GroupIds(allowed))
  {
  }
}

=== FILE: report_scope.dfy ===
/**
 * The forum summary report's entry page: which course and forum a request
 * reports on. A positive forum id wins over any course id; otherwise a
 * positive course id covers all of that course's forums.
 *
 * The forum table lookup is a map from forum id to its record.
 */
module ReportScope {
  import opened Base

  /** Rows per page when the request does not say. */
  const DefaultPerPage: int := 10

  /** The forum record fields the page reads. */
  datatype Forum = Forum(name: string, course: int)

  /** The optional request parameters; `None` when absent. */
  datatype Request = Request(forumid: Option<int>, courseid: Option<int>, perpage: Option<int>)

  /** The report title's subject: one named forum, or every forum of the course. */
  datatype ForumTitle = ForumNamed(name: string) | AllForums

  /** The parameter the report URL carries. */
  datatype UrlParam = ForumIdParam(forumid: int) | CourseIdParam(courseid: int)

  /** What the summary table is built for. */
  datatype Scope = Scope(courseid: int, forumid: int, title: ForumTitle, urlParam: UrlParam, perpage: int)

  /** The two exceptions the page throws. */
  datatype ScopeError = ForumNotFound(forumid: int) | NoForumOrCourse

  /** The `optional_param` reads, with their defaults. */
  function ForumIdOf(r: Request): int { r.forumid.GetOr(0) }
  function CourseIdOf(r: Request): int { r.courseid.GetOr(0) }
  function PerPageOf(r: Request): (n: int)
    ensures r.perpage.None? ==> n == DefaultPerPage
    ensures r.perpage.Some? ==> n == r.perpage.value
  {
    r.perpage.GetOr(DefaultPerPage)
  }

  /** The scope resolution at the top of the page. */
  function Resolve(r: Request, forums: map<int, Forum>): (s: Result<Scope, ScopeError>)
    ensures ForumIdOf(r) > 0 && ForumIdOf(r) !in forums <==> s == Err(ForumNotFound(ForumIdOf(r)))
    ensures ForumIdOf(r) <= 0 && CourseIdOf(r) <= 0 <==> s == Err(NoForumOrCourse)
    ensures s.Ok? <==> (ForumIdOf(r) > 0 && ForumIdOf(r) in forums) || (ForumIdOf(r) <= 0 && CourseIdOf(r) > 0)
    ensures s.Ok? ==> s.value.forumid == ForumIdOf(r) && s.value.perpage == PerPageOf(r)
    ensures s.Ok? && ForumIdOf(r) > 0 ==>
              s.value.courseid == forums[ForumIdOf(r)].course
              && s.value.title == ForumNamed(forums[ForumIdOf(r)].name)
              && s.value.urlParam == ForumIdParam(ForumIdOf(r))
    ensures s.Ok? && ForumIdOf(r) <= 0 ==>
              s.value.courseid == CourseIdOf(r) && s.value.title == AllForums
              && s.value.urlParam == CourseIdParam(CourseIdOf(r))
  {
    var forumid := ForumIdOf(r);
    var courseid := CourseIdOf(r);
    var perpage := PerPageOf(r);
    if forumid > 0 then
      if forumid !in forums then Err(ForumNotFound(forumid))
      else
        var forum := forums[forumid];
        Ok(Scope(forum.course, forumid, ForumNamed(forum.name), ForumIdParam(forumid), perpage))
    else if courseid > 0 then
      Ok(Scope(courseid, forumid, AllForums, CourseIdParam(courseid), perpage))
    else
      Err(NoForumOrCourse)
  }

  /** A supplied course id never matters once a forum id is given. */
  lemma ForumIdOverridesCourseId(r: Request, courseid: Option<int>, forums: map<int, Forum>)
    requires ForumIdOf(r) > 0
    ensures Resolve(r.(courseid := courseid), forums) == Resolve(r, forums)
  {
  }

  /** When every forum belongs to a real course, a resolved report always covers a real course. */
  lemma ResolvedCourseIsPositive(r: Request, forums: map<int, Forum>)
    requires forall id :: id in forums ==> forums[id].course > 0
    requires Resolve(r, forums).Ok?
    ensures Resolve(r, forums).value.courseid > 0
  {
  }
}

=== FILE: rubric_panel.dfy ===
/**
 * The rubric grading panel: the display-mode label, the value fallback and
 * the boolean flags it hands to the rubric template.
 *
 * The grading instance, its controller and the form element are collaborator
 * objects; what the panel asks of them is captured as plain fields of
 * `Panel`.
 */
module RubricPanel {
  import opened Base

  /**
   * The rubric controller's display modes the label switch lists, plus
   * `Unlisted` for any other value (the editor modes, or the mode before
   * `set_mode` has run).
   */
  datatype DisplayMode = Preview | PreviewGraded | Eval | EvalFrozen | Review | View | Unlisted

  /** The grading instance status codes. */
  datatype InstanceStatus = Incomplete | Active | NeedUpdate | Archive

  /** One criterion of a rubric filling: the chosen level and the remark, each possibly null. */
  datatype CriterionFilling = CriterionFilling(levelid: Option<int>, remark: Option<string>)

  /** A rubric filling: criterion id => chosen level and remark. */
  datatype Filling = Filling(criteria: map<int, CriterionFilling>)

  /**
   * The grading form element's value: `null`, a non-null value PHP reads as
   * false (an empty array), or a submitted filling.
   */
  datatype FormValue = NullValue | EmptyValue | Submitted(filling: Filling)

  /** The grading instance currently stored for the graded user. */
  datatype StoredInstance = StoredInstance(filling: Filling, status: InstanceStatus)

  /** The controller options the flags read. */
  datatype RubricOptions = RubricOptions(
    showDescriptionTeacher: bool,
    enableRemarks: bool,
    showRemarksStudent: bool)

  /** What the panel knows: its form element, its grading instance and the controller's options. */
  datatype Panel = Panel(
    name: string,
    submitted: FormValue,           // the form element's getValue()
    draftFilling: Filling,          // the instance's own rubric filling
    submittedValid: bool,           // the instance's validate_grading_element on the submitted value
    current: Option<StoredInstance>, // the instance's get_current_instance()
    isRestored: bool,               // the instance's get_data('isrestored')
    description: string,            // the controller's formatted description
    options: RubricOptions,
    mode: DisplayMode)

  /** The data the panel exports to the rubric template. */
  datatype PanelData = PanelData(
    name: string,
    rubricMode: string,
    values: FormValue,
    invalid: bool,
    instanceUpdate: bool,
    hasChanged: bool,
    teacherDescription: Option<string>,
    showRemark: bool,
    canEdit: bool,
    hasFormFields: bool)

  /** `rubric_mode`: the label the template receives for a display mode. */
  function RubricMode(m: DisplayMode): (s: string)
    ensures s == "" <==> m == Unlisted
    ensures s == "editor preview" <==> m == Preview || m == PreviewGraded
    ensures s == "evaluate editable" <==> m == Eval
    ensures s == "evaluate frozen" <==> m == EvalFrozen
    ensures s == "review" <==> m == Review
    ensures s == "view" <==> m == View
  {
    match m
    case Preview | PreviewGraded => "editor preview"
    case Eval => "evaluate editable"
    case EvalFrozen => "evaluate frozen"
    case Review => "review"
    case View => "view"
    case Unlisted => ""
  }

  /** Two modes share a label only when they are the same mode or both preview modes. */
  lemma RubricModeSeparatesModes(a: DisplayMode, b: DisplayMode)
    requires RubricMode(a) == RubricMode(b)
    ensures a == b || ((a == Preview || a == PreviewGraded) && (b == Preview || b == PreviewGraded))
  {
  }

  /** `set_mode`: the panel always evaluates in the editable mode. */
  function SetMode(p: Panel): (q: Panel)
    ensures RubricMode(q.mode) == "evaluate editable"
    ensures q.(mode := p.mode) == p
  {
    p.(mode := Eval)
  }

  /** `get_values`: the submitted value unless it is null, else the instance's filling. */
  function Values(p: Panel): (v: FormValue)
    ensures v != NullValue
    ensures p.submitted != NullValue ==> v == p.submitted
    ensures p.submitted == NullValue ==> v == Submitted(p.draftFilling)
  {
    if p.submitted != NullValue then p.submitted else Submitted(p.draftFilling)
  }

  /** `is_invalid`: only a submitted filling is validated; an empty or null value is never invalid. */
  function IsInvalid(p: Panel): (r: bool)
    ensures r ==> p.submitted.Submitted? && Values(p) == p.submitted
    ensures p.submitted.Submitted? ==> (r <==> !p.submittedValid)
  {
    match p.submitted
    case Submitted(_) => !p.submittedValid
    case _ => false
  }

  /** `show_description_teacher`: the description when the option is set, else `false`. */
  function ShowDescriptionTeacher(p: Panel): (r: Option<string>)
    ensures r.Some? <==> p.options.showDescriptionTeacher
    ensures r.Some? ==> r.value == p.description
  {
    if p.options.showDescriptionTeacher then Some(p.description) else None
  }

  /** `show_remark`: remarks enabled, and either not the student view or shown to students. */
  function ShowRemark(p: Panel): (r: bool)
    ensures r ==> p.options.enableRemarks
    ensures p.mode != View ==> r == p.options.enableRemarks
  {
    p.options.enableRemarks && (p.mode != View || p.options.showRemarksStudent)
  }

  /** In the student view remarks show only when the option allows students to see them. */
  lemma ViewHidesRemarksUnlessShownToStudents(p: Panel)
    requires p.mode == View
    ensures ShowRemark(p) <==> p.options.enableRemarks && p.options.showRemarksStudent
  {
  }

  /** `can_edit`: not implemented yet, so never. */
  function CanEdit(p: Panel): (r: bool)
    ensures !r
  {
    false
  }

  /** `include_form_fields`: not implemented yet, so always. */
  function IncludeFormFields(p: Panel): (r: bool)
    ensures r
  {
    true
  }

  // ---- instance_update_required ----------------------------------------

  /** The undeclared `has_current_instance` property: reading it yields null. */
  const HasCurrentInstanceProperty: Option<bool> := None

  /**
   * `instance_update_required` as written: it tests the undeclared property
   * instead of calling `has_current_instance()`, so the method returns false
   * before looking at the status.
   */
  function InstanceUpdateRequiredAsWritten(p: Panel): (r: bool)
    ensures !r
  {
    if HasCurrentInstanceProperty != Some(true) then false
    else InstanceUpdateRequired(p)
  }

  /** The method as intended: an existing current instance whose status asks for an update. */
  function InstanceUpdateRequired(p: Panel): (r: bool)
    ensures r <==> p.current.Some? && p.current.value.status == NeedUpdate
  {
    if p.current.None? then false
    else p.current.value.status == NeedUpdate
  }

  /** A panel whose stored instance needs an update, yet the code as written reports no update. */
  lemma InstanceUpdateRequiredDiscrepancy()
    ensures var p := Panel("rubric", NullValue, Filling(map[]), true,
                           Some(StoredInstance(Filling(map[]), NeedUpdate)), false, "",
                           RubricOptions(false, false, false), Eval);
            !InstanceUpdateRequiredAsWritten(p) && InstanceUpdateRequired(p)
  {
  }

  // ---- stored_rubric_has_changes ---------------------------------------

  /** PHP's `!=` between a possibly-null level id and another: null compares equal to 0. */
  function LevelOrZero(l: Option<int>): int {
    l.GetOr(0)
  }

  /** PHP's `!=` between a possibly-null remark and another: null compares equal to "". */
  function RemarkOrEmpty(s: Option<string>): string {
    s.GetOr("")
  }

  /** The loop's comparison of a new criterion value against a stored one. */
  predicate CriterionDiffers(newer: CriterionFilling, stored: CriterionFilling) {
    LevelOrZero(newer.levelid) != LevelOrZero(stored.levelid)
    || RemarkOrEmpty(newer.remark) != RemarkOrEmpty(stored.remark)
  }

  /** The criterion the values hold for `cid`, with both parts null when there is none. */
  function NewCriterion(values: FormValue, cid: int): (c: CriterionFilling)
    ensures !values.Submitted? ==> c == CriterionFilling(None, None)
    ensures values.Submitted? && cid in values.filling.criteria ==> c == values.filling.criteria[cid]
    ensures values.Submitted? && cid !in values.filling.criteria ==> c == CriterionFilling(None, None)
  {
    if values.Submitted? && cid in values.filling.criteria then values.filling.criteria[cid]
    else CriterionFilling(None, None)
  }

  /**
   * `stored_rubric_has_changes` as written: the loop's only write to the
   * local `$value` is each criterion's `savedlevelid`, so the `levelid` and
   * `remark` it reads back are never set and each stored criterion is
   * compared against a null level and a null remark.
   */
  function StoredRubricHasChangesAsWritten(p: Panel): (r: bool)
    ensures r <==> (p.current.Some? &&
      exists cid :: cid in p.current.value.filling.criteria &&
        (LevelOrZero(p.current.value.filling.criteria[cid].levelid) != 0
         || RemarkOrEmpty(p.current.value.filling.criteria[cid].remark) != ""))
  {
    if p.current.None? then false
    else
      var stored := p.current.value.filling.criteria;
      exists cid :: cid in stored && CriterionDiffers(CriterionFilling(None, None), stored[cid])
  }

  /**
   * The method as intended: some stored criterion differs from the panel's
   * values (`get_values()`), as the rubric's own element renderer compares them.
   */
  function StoredRubricHasChanges(p: Panel): (r: bool)
    ensures p.current.None? ==> !r
    ensures r ==> exists cid :: cid in p.current.value.filling.criteria &&
                    CriterionDiffers(NewCriterion(Values(p), cid), p.current.value.filling.criteria[cid])
  {
    if p.current.None? then false
    else
      var stored := p.current.value.filling.criteria;
      exists cid :: cid in stored && CriterionDiffers(NewCriterion(Values(p), cid), stored[cid])
  }

  /** Values identical to the stored filling are not a change. */
  lemma UnchangedValuesAreNoChange(p: Panel)
    requires p.current.Some? && Values(p) == Submitted(p.current.value.filling)
    ensures !StoredRubricHasChanges(p)
  {
  }

  /** A stored level that the values no longer choose is a change. */
  lemma ChangedLevelIsChange(p: Panel, cid: int)
    requires p.current.Some? && cid in p.current.value.filling.criteria
    requires LevelOrZero(NewCriterion(Values(p), cid).levelid)
             != LevelOrZero(p.current.value.filling.criteria[cid].levelid)
    ensures StoredRubricHasChanges(p)
  {
  }

  /** A stored remark that the values no longer carry is a change. */
  lemma ChangedRemarkIsChange(p: Panel, cid: int)
    requires p.current.Some? && cid in p.current.value.filling.criteria
    requires RemarkOrEmpty(NewCriterion(Values(p), cid).remark)
             != RemarkOrEmpty(p.current.value.filling.criteria[cid].remark)
    ensures StoredRubricHasChanges(p)
  {
  }

  /** Submitting exactly the stored filling: the code as written still reports a change. */
  lemma StoredRubricHasChangesDiscrepancy()
    ensures var stored := Filling(map[7 := CriterionFilling(Some(3), None)]);
            var p := Panel("rubric", Submitted(stored), stored, true,
                           Some(StoredInstance(stored, Active)), true, "",
                           RubricOptions(false, false, false), Eval);
            StoredRubricHasChangesAsWritten(p) && !StoredRubricHasChanges(p)
  {
    var stored := Filling(map[7 := CriterionFilling(Some(3), None)]);
    assert CriterionDiffers(CriterionFilling(None, None), stored.criteria[7]);
  }

  /** `restored_from_draft`: stored changes, and the instance was restored from a draft. */
  function RestoredFromDraft(p: Panel): (r: bool)
    ensures r <==> StoredRubricHasChanges(p) && p.isRestored
  {
    StoredRubricHasChanges(p) && p.isRestored
  }

  /** `restored_from_draft` over the stored-changes test as written. */
  function RestoredFromDraftAsWritten(p: Panel): (r: bool)
    ensures r <==> p.isRestored && StoredRubricHasChangesAsWritten(p)
  {
    StoredRubricHasChangesAsWritten(p) && p.isRestored
  }

  /**
   * `get_data`: sets the mode, then gathers the label, values and flags,
   * with the update and change flags computed by the corrected tests.
   * The criteria and the rendering itself are left to the template.
   */
  function GetData(p: Panel): (d: PanelData)
    ensures d.rubricMode == "evaluate editable"
    ensures d.showRemark == p.options.enableRemarks
    ensures d.values == Values(p) && d.values != NullValue
    ensures d.invalid <==> p.submitted.Submitted? && !p.submittedValid
    ensures d.instanceUpdate <==> p.current.Some? && p.current.value.status == NeedUpdate
    ensures d.hasChanged ==> p.isRestored && p.current.Some?
    ensures d.hasChanged <==> p.isRestored && StoredRubricHasChanges(p)
    ensures d.teacherDescription.Some? <==> p.options.showDescriptionTeacher
    ensures d.teacherDescription.Some? ==> d.teacherDescription.value == p.description
    ensures !d.canEdit && d.hasFormFields
    ensures d.name == p.name
  {
    var q := SetMode(p);
    PanelData(q.name, RubricMode(q.mode), Values(q), IsInvalid(q), InstanceUpdateRequired(q),
              RestoredFromDraft(q), ShowDescriptionTeacher(q), ShowRemark(q), CanEdit(q),
              IncludeFormFields(q))
  }

  /**
   * `get_data` as the code runs it: the same export, but with the update
   * flag and the change flag computed by the two tests as written.
   */
  function GetDataAsWritten(p: Panel): (d: PanelData)
    ensures !d.instanceUpdate
    ensures d.hasChanged <==> p.isRestored && StoredRubricHasChangesAsWritten(p)
    ensures d == GetData(p).(instanceUpdate := false, hasChanged := d.hasChanged)
  {
    var q := SetMode(p);
    PanelData(q.name, RubricMode(q.mode), Values(q), IsInvalid(q), InstanceUpdateRequiredAsWritten(q),
              RestoredFromDraftAsWritten(q), ShowDescriptionTeacher(q), ShowRemark(q), CanEdit(q),
              IncludeFormFields(q))
  }
}

=== FILE: summary_filters.dfy ===
/**
 * The forum summary report's filter controls: regenerating the report with
 * the filters form, the latch that lets only one filter popover open, the
 * group checkboxes' select-all and clear, and saving the dates filter.
 *
 * The page is a record of exactly the DOM state these handlers read and
 * write; each handler is a function from page to page.
 */
module SummaryFilters {
  import opened Base

  /** An element of the document, by identity. */
  type ElementId = int

  /** The two filter popovers. */
  datatype Popover = GroupsPopover | DatesPopover

  /** The look of a filter's trigger button. */
  datatype TriggerStyle = TriggerStyle(outlined: bool, expanded: bool)

  /** The filters form's hidden date inputs; enabled flags are 1 or 0. */
  datatype DateFields = DateFields(fromTimestamp: int, fromEnabled: int, toTimestamp: int, toEnabled: int)

  /** The part of the report page the filter handlers touch. */
  datatype Page = Page(
    action: string,               // the filters form's action URL
    submitted: bool,              // the filters form has been submitted
    openFilter: set<ElementId>,   // elements marked data-openfilter="true"
    groupBoxes: seq<bool>,        // checked state of each group checkbox
    groupsHidden: bool,
    datesHidden: bool,
    groupsTrigger: TriggerStyle,
    datesTrigger: TriggerStyle,
    dateFields: DateFields,
    warning: Option<string>,      // the dates warning's text while it is shown
    changeCheckerReset: bool)     // the form change checker was told the form is clean

  /** A click on a sort, pagination or reset link, with the link's query string (`?…` or empty). */
  datatype LinkEvent = LinkEvent(search: string)

  /** `substr(1)`: the query string without its leading `?`. */
  function FilterParams(search: string): (r: string)
    ensures |search| > 0 ==> [search[0]] + r == search
    ensures |search| == 0 ==> r == ""
  {
    if |search| == 0 then "" else search[1..]
  }

  /**
   * `generateWithFilters`: with a link click, the link's parameters are
   * appended to the form action; then the form is submitted.
   */
  function GenerateWithFilters(p: Page, event: Option<LinkEvent>): (q: Page)
    ensures q.submitted
    ensures event.None? ==> q.action == p.action
    ensures event.Some? ==>
              |q.action| == |p.action| + 1 + |FilterParams(event.value.search)|
              && q.action[..|p.action|] == p.action
              && q.action[|p.action|] == '&'
              && q.action[|p.action| + 1..] == FilterParams(event.value.search)
    ensures q.(action := p.action, submitted := p.submitted) == p
  {
    match event
    case None => p.(submitted := true)
    case Some(e) =>
      var link := p.action + "&" + FilterParams(e.search);
      assert link[..|p.action|] == p.action;
      assert link[|p.action| + 1..] == FilterParams(e.search);
      p.(action := link, submitted := true)
  }

  /** Hides a popover. */
  function Hide(p: Page, which: Popover): (q: Page)
    ensures which == GroupsPopover ==> q == p.(groupsHidden := true)
    ensures which == DatesPopover ==> q == p.(datesHidden := true)
  {
    match which
    case GroupsPopover => p.(groupsHidden := true)
    case DatesPopover => p.(datesHidden := true)
  }

  /** `submitWithFilter`: close the popover and submit with the action unchanged. */
  function SubmitWithFilter(p: Page, which: Popover): (q: Page)
    ensures q.submitted && q.action == p.action
    ensures which == GroupsPopover ==> q.groupsHidden
    ensures which == DatesPopover ==> q.datesHidden
    ensures q.openFilter == p.openFilter && q.groupBoxes == p.groupBoxes && q.dateFields == p.dateFields
  {
    GenerateWithFilters(Hide(p, which), None)
  }

  /** The result of trying to open a filter. */
  datatype OpenAttempt = OpenAttempt(allowed: bool, page: Page)

  /** `canOpenFilter`: refuse while any element is marked open, else mark the trigger. */
  function CanOpenFilter(p: Page, target: ElementId): (a: OpenAttempt)
    ensures p.openFilter != {} ==> !a.allowed && a.page == p
    ensures p.openFilter == {} ==> a.allowed && a.page == p.(openFilter := {target})
  {
    if p.openFilter != {} then OpenAttempt(false, p)
    else OpenAttempt(true, p.(openFilter := {target}))
  }

  /** The trigger handler of either filter: when allowed, show its popover and mark its button expanded. */
  function OpenFilter(p: Page, which: Popover, target: ElementId): (a: OpenAttempt)
    ensures a.allowed <==> p.openFilter == {}
    ensures !a.allowed ==> a.page == p
    ensures a.allowed && which == GroupsPopover ==>
              !a.page.groupsHidden && a.page.groupsTrigger == TriggerStyle(true, true)
    ensures a.allowed && which == DatesPopover ==>
              !a.page.datesHidden && a.page.datesTrigger == TriggerStyle(true, true)
    ensures a.allowed ==> a.page.openFilter == {target}
    ensures a.allowed && which == GroupsPopover ==>
              a.page == p.(openFilter := {target}, groupsHidden := false, groupsTrigger := TriggerStyle(true, true))
    ensures a.allowed && which == DatesPopover ==>
              a.page == p.(openFilter := {target}, datesHidden := false, datesTrigger := TriggerStyle(true, true))
  {
    var attempt := CanOpenFilter(p, target);
    if !attempt.allowed then attempt
    else
      var q := attempt.page;
      match which
      case GroupsPopover => OpenAttempt(true, q.(groupsHidden := false, groupsTrigger := TriggerStyle(true, true)))
      case DatesPopover => OpenAttempt(true, q.(datesHidden := false, datesTrigger := TriggerStyle(true, true)))
  }

  /** Select all: every group checkbox ends checked. */
  function SelectAllGroups(p: Page): (q: Page)
    ensures |q.groupBoxes| == |p.groupBoxes|
    ensures forall i :: 0 <= i < |q.groupBoxes| ==> q.groupBoxes[i]
    ensures q.(groupBoxes := p.groupBoxes) == p
  {
    p.(groupBoxes := seq(|p.groupBoxes|, _ => true))
  }

  /** Clear: every group checkbox ends unchecked. */
  function ClearGroups(p: Page): (q: Page)
    ensures |q.groupBoxes| == |p.groupBoxes|
    ensures forall i :: 0 <= i < |q.groupBoxes| ==> !q.groupBoxes[i]
    ensures q.(groupBoxes := p.groupBoxes) == p
  {
    p.(groupBoxes := seq(|p.groupBoxes|, _ => false))
  }

  /** Select all after clear, or clear after select all: the last one wins. */
  lemma LastGroupActionWins(p: Page)
    ensures SelectAllGroups(ClearGroups(p)) == SelectAllGroups(p)
    ensures ClearGroups(SelectAllGroups(p)) == ClearGroups(p)
  {
  }

  /** A checkbox state as the 1/0 the date inputs carry. */
  function EnabledFlag(checked: bool): (f: int)
    ensures f == 0 || f == 1
    ensures f == 1 <==> checked
  {
    if checked then 1 else 0
  }

  /** A warning returned by the timestamps web service. */
  datatype Warning = Warning(message: string)

  /** The timestamps web service's reply. */
  datatype TimestampsResult = TimestampsResult(warnings: seq<Warning>, timestampfrom: int, timestampto: int)

  /** One date of the dates popover, as sent to the web service. */
  datatype DateArg = DateArg(day: int, month: int, year: int, enabled: int)

  /** The date selectors of one side of the popover. */
  datatype DateInput = DateInput(day: int, month: int, year: int, enabledChecked: bool)

  /** The request arguments built from the popover's two dates. */
  function DateArgs(d: DateInput): (a: DateArg)
    ensures a.day == d.day && a.month == d.month && a.year == d.year
    ensures a.enabled == 1 <==> d.enabledChecked
  {
    DateArg(d.day, d.month, d.year, EnabledFlag(d.enabledChecked))
  }

  /**
   * The reply handler of the dates save: with warnings, show the first one
   * and change nothing else; otherwise copy the timestamps and enabled
   * flags into the form and submit it.
   */
  function DatesSaved(p: Page, result: TimestampsResult, fromChecked: bool, toChecked: bool): (q: Page)
    ensures |result.warnings| > 0 ==> q == p.(warning := Some(result.warnings[0].message))
    ensures |result.warnings| == 0 ==>
              q.dateFields.fromTimestamp == result.timestampfrom
              && q.dateFields.toTimestamp == result.timestampto
              && (q.dateFields.fromEnabled == 1 <==> fromChecked)
              && (q.dateFields.toEnabled == 1 <==> toChecked)
    ensures |result.warnings| == 0 ==>
              q.submitted && q.datesHidden && q.changeCheckerReset && q.action == p.action && q.warning == p.warning
    ensures |result.warnings| == 0 ==>
              q == p.(dateFields := q.dateFields, changeCheckerReset := true, datesHidden := true, submitted := true)
  {
    if |result.warnings| > 0 then p.(warning := Some(result.warnings[0].message))
    else
      var filled := p.(dateFields := DateFields(result.timestampfrom, EnabledFlag(fromChecked),
                                                result.timestampto, EnabledFlag(toChecked)),
                       changeCheckerReset := true);
      SubmitWithFilter(filled, DatesPopover)
  }

  // ---- the handlers over a run of events ---------------------------------

  /** The user actions the module handles. */
  datatype Event =
    | LinkClicked(link: LinkEvent)
    | TriggerActivated(which: Popover, target: ElementId)
    | SelectAll
    | Clear
    | SaveGroups
    | DatesReply(result: TimestampsResult, fromChecked: bool, toChecked: bool)

  /** One handled event. */
  function Apply(p: Page, e: Event): (q: Page)
    ensures p.openFilter <= q.openFilter
    ensures |p.openFilter| <= 1 ==> |q.openFilter| <= 1
  {
    match e
    case LinkClicked(link) => GenerateWithFilters(p, Some(link))
    case TriggerActivated(which, target) => OpenFilter(p, which, target).page
    case SelectAll => SelectAllGroups(p)
    case Clear => ClearGroups(p)
    case SaveGroups => SubmitWithFilter(p, GroupsPopover)
    case DatesReply(result, fromChecked, toChecked) => DatesSaved(p, result, fromChecked, toChecked)
  }

  /** A run of events, in order. */
  function Run(p: Page, events: seq<Event>): Page
    decreases |events|
  {
    if |events| == 0 then p else Run(Apply(p, events[0]), events[1..])
  }

  /**
   * Whatever happens, at most one element is ever marked open, and once
   * marked it stays marked: no handler clears the marker.
   */
  lemma {:induction false} OpenMarkerLatches(p: Page, events: seq<Event>)
    requires |p.openFilter| <= 1
    ensures |Run(p, events).openFilter| <= 1
    ensures p.openFilter <= Run(p, events).openFilter
    decreases |events|
  {
    if |events| > 0 {
      OpenMarkerLatches(Apply(p, events[0]), events[1..]);
    }
  }

  /** Once a filter is open, no trigger can open another popover. */
  lemma {:induction false} NoSecondFilterOpens(p: Page, events: seq<Event>, which: Popover, target: ElementId)
    requires p.openFilter != {}
    ensures !OpenFilter(Run(p, events), which, target).allowed
    decreases |events|
  {
    if |events| > 0 {
      NoSecondFilterOpens(Apply(p, events[0]), events[1..], which, target);
    }
  }
}

=== FILE: user_picker.dfy ===
/**
 * The forum grading screen's user picker: it starts at the current user's position in
 * the list and moves by each change-user button's direction, with no
 * clamping.
 */
module UserPicker {
  import opened Base

  /** A gradable user as the course repository lists them. */
  datatype User = User(id: int, fullname: string)

  /**
   * The record passed to the user template: the user's own fields (none when
   * the index is out of range, since spreading `undefined` adds nothing),
   * the number of users and the one-based position.
   */
  datatype ShownUser = ShownUser(user: Option<User>, total: nat, displayIndex: int)

  /** The picker's state: the user list and the current index. */
  datatype Picker = Picker(users: seq<User>, index: int)

  /** `users.findIndex`: the first position holding `currentUserId`, or -1. */
  function InitialIndex(users: seq<User>, currentUserId: int): (r: int)
    ensures -1 <= r < |users|
    ensures r == -1 <==> forall j :: 0 <= j < |users| ==> users[j].id != currentUserId
    ensures r >= 0 ==> users[r].id == currentUserId
    ensures r >= 0 ==> forall j :: 0 <= j < r ==> users[j].id != currentUserId
  {
    if |users| == 0 then -1
    else if users[0].id == currentUserId then 0
    else
      var k := InitialIndex(users[1..], currentUserId);
      assert forall j :: 1 <= j < |users| ==> users[j] == users[1..][j - 1];
      if k == -1 then -1 else k + 1
  }

  /** `showUser`: the record for the user at `index`. */
  function ShowUser(users: seq<User>, index: int): (s: ShownUser)
    ensures s.total == |users|
    ensures s.displayIndex - 1 == index
    ensures s.user.Some? <==> 0 <= index < |users|
    ensures s.user.Some? ==> s.user.value == users[index]
  {
    ShownUser(if 0 <= index < |users| then Some(users[index]) else None, |users|, index + 1)
  }

  /** While the index is in range the one-based position lies between 1 and the total. */
  lemma DisplayIndexInRange(users: seq<User>, index: int)
    requires 0 <= index < |users|
    ensures 1 <= ShowUser(users, index).displayIndex <= ShowUser(users, index).total
  {
  }

  /** `buildPicker`: the picker positioned on the current user. */
  function BuildPicker(users: seq<User>, currentUserId: int): (p: Picker)
    ensures p.users == users
    ensures -1 <= p.index < |users|
    ensures 0 <= p.index ==> users[p.index].id == currentUserId
    ensures 0 <= p.index ==> forall j :: 0 <= j < p.index ==> users[j].id != currentUserId
    ensures p.index == -1 <==> forall j :: 0 <= j < |users| ==> users[j].id != currentUserId
  {
    Picker(users, InitialIndex(users, currentUserId))
  }

  /** The first record a picker shows: the current user, or no user and position 0 when absent. */
  lemma BuildPickerShowsCurrentUser(users: seq<User>, currentUserId: int)
    ensures var s := ShowUser(users, BuildPicker(users, currentUserId).index);
            (s.user.Some? <==> exists j :: 0 <= j < |users| && users[j].id == currentUserId)
            && (s.user.Some? ==> s.user.value.id == currentUserId && 1 <= s.displayIndex <= s.total)
            && (s.user.None? ==> s.displayIndex == 0)
  {
  }

  /** One click on a change-user button: move by its direction. */
  function ChangeUser(p: Picker, direction: int): (q: Picker)
    ensures q.users == p.users
    ensures q.index - p.index == direction
  {
    p.(index := p.index + direction)
  }

  /** A run of clicks, in order. */
  function Navigate(p: Picker, directions: seq<int>): Picker
    decreases |directions|
  {
    if |directions| == 0 then p else Navigate(ChangeUser(p, directions[0]), directions[1..])
  }

  /** The sum of the clicked directions. */
  function Sum(directions: seq<int>): int
    decreases |directions|
  {
    if |directions| == 0 then 0 else Sum(directions[..|directions| - 1]) + directions[|directions| - 1]
  }

  /** Sums split over concatenation. */
  lemma {:induction false} SumAppend(a: seq<int>, b: seq<int>)
    ensures Sum(a + b) == Sum(a) + Sum(b)
    decreases |b|
  {
    if |b| > 0 {
      assert (a + b)[..|a + b| - 1] == a + b[..|b| - 1];
      SumAppend(a, b[..|b| - 1]);
    } else {
      assert a + b == a;
    }
  }

  /** After any run of clicks the index is the start index plus the sum of the directions. */
  lemma {:induction false} NavigateAddsSum(p: Picker, directions: seq<int>)
    ensures Navigate(p, directions).users == p.users
    ensures Navigate(p, directions).index == p.index + Sum(directions)
    decreases |directions|
  {
    if |directions| > 0 {
      NavigateAddsSum(ChangeUser(p, directions[0]), directions[1..]);
      assert directions == [directions[0]] + directions[1..];
      SumAppend([directions[0]], directions[1..]);
      assert [directions[0]][..0] == [];
    }
  }

  /** A "next" click followed by a "previous" click returns to the same user. */
  lemma NextThenPreviousReturns(p: Picker)
    ensures Navigate(p, [1, -1]) == p
  {
    NavigateAddsSum(p, [1, -1]);
    assert [1, -1][..1] == [1];
    assert [1][..0] == [];
  }
}
